=== FILE: README.md ===
# CircuitAnalyzer: the AC sweep, modelled in Dafny

CircuitAnalyzer builds a circuit from nodes and two-terminal components
(resistor, capacitor, inductor, voltage source, current source) and runs an
AC sweep on it. The sweep uses modified nodal analysis. Every node and every
component gets an index: nodes first, then components. Each node contributes
one row: a current balance (Kirchhoff's current law), or a reference row for
a ground node. Each component contributes one row: its governing equation
`A·V + B·I = C`. The square system is solved, and the solution is returned
as a dictionary keyed by node and component names. Node entries are
voltages; component entries are branch currents.

This project models that core as immutable values and pure functions:

- `python.dfy`: the Python exceptions and argument values the code checks (`Result`, `Option`, `Error`, `Value`).
- `nodes.dfy`: `Node`, its constructor and `add_connection`.
- `components.dfy`: the five variants, `get_params`, and each variant's physical law.
- `circuits.dfy`: the circuit value, `add_node`, consistency of the connection lists, and index assignment.
- `registration.dfy`: the component constructor, both as intended and as written.
- `linear.dfy`: rows, dot products and the vector lemmas the proofs use.
- `assembly.dfy`: the node rows, the four-way component rows, and the assembled system, both as a pure function and as the in-place loop the source runs.
- `laws.dfy`: what a solution of the assembled system means, row by row and as a whole.
- `sweep.dfy`: `ac_sweep` end to end, with the solver as a parameter, and the result dictionary.
- `examples.dfy`: the circuits of the repository's AC unit tests, built through the modelled constructors, with the sweep results proved.

A circuit is a value `Circuit(nodes, comps)`. Nodes and components refer to
each other by position, so the handle of a component is its index in
`comps`. The linear solver (`np.linalg.solve`) is a parameter
`solve: System -> Option<seq<real>>`. It is constrained only by
`ExactSolver`: it returns `x` exactly when `x` is the one and only solution,
and `None` otherwise, which models `LinAlgError`. Numbers are `real`, and
π is the decimal value of `math.pi`; the proofs use only that it is positive.

The ground-node row is modelled in two readings (`GroundReading`). `WholeRow`
is what `mrx[node.id] = 1` does under numpy. `Diagonal` is the voltage
assignment the comment and the tests intend. The corrected reading is the one
the theorems about physical meaning use; see "## Findings".

## Model

| member | source | states |
|---|---|---|
| `Nodes.NewNode` | Node.py:5-20 | `Node(name, ground)` succeeds exactly when the name is a string and the flag a bool. It checks the name first and raises the matching TypeError message. A new node keeps the name and flag and has empty connection lists. |
| `Nodes.AddConnection` | Node.py:22-38 | Both arguments are type-checked before anything changes: component first, then polarity. `True` appends the component to the end of the positive list, `False` to the negative list. The other list, the name and the ground flag are untouched. |
| `Nodes.ConnectionsAppendOnly` | Node.py:22-38 | After any run of `add_connection` calls, the starting lists are prefixes of the final lists. Entries are never removed or reordered, and the name and flag never change. |
| `Nodes.ConnectionsCount` | Node.py:30-38 | A run of calls succeeds exactly when every call passes both type checks. Each successful call lengthens exactly one list by one. |
| `Circuits.AddNode` | Circuit.py:11-21 | `add_node` raises TypeError for anything but a Node. Otherwise the node is appended at the end; earlier nodes and all components stay as they were. |
| `Circuits.AddNodeKeepsConsistent` | Circuit.py:18-21 | Adding a freshly constructed node keeps each node's connection lists in agreement with the components' terminals. |
| `Circuits.Enumeration` | Circuit.py:77-78 | One entity per unknown: the enumeration has `N + M` entries. |
| `Circuits.IndexOf` | Circuit.py:77-78 | Every node and component gets an index below `N + M`, and the enumeration holds that entity at that index. Nodes get exactly the indices below `N`. |
| `Circuits.EntityAt` | Circuit.py:77-78 | Every index below `N + M` belongs to a valid entity whose index it is. |
| `Circuits.IndexAssignmentIsBijection` | Circuit.py:77-78 | Index assignment is a bijection onto `0 .. N+M-1`. No two entities share an index, and no index is skipped or repeated. |
| `Components.VariantOf` | Components.py:17-105 | Each subclass constructor stores its parameter. The resistor stores `B = -resistance`; the others store their capacitance, inductance, voltage or current unchanged. |
| `Components.GetParams` | Components.py:21-108 | Only the capacitor and the inductor can fail. Without `"frequency"` they raise `KeyError("frequency not provided")`. With a frequency, only the capacitor can fail, with ZeroDivisionError. On success `A = 1` for every variant but the current source, and `C = 0` for the passive ones. |
| `Components.GoverningEquation` | Components/Component.py:9-10 | Whenever `get_params` returns `(A, B, C)`, a voltage and current satisfy `A·V + B·I = C` exactly when they obey the variant's physical law. The law is stated independently of the coefficients: Ohm's law, `2πfC·V = I`, `V = 2πfL·I`, `V = Vs`, `I = Is`. |
| `Components.OhmsLaw` | Components/Resistor.py:19-22 | A resistor built with resistance `R` returns `(1, -R, 0)` for every parameter set, the empty one included. Its equation holds exactly when `V = R·I`. |
| `Components.OnlyFrequencyMatters` | Components.py:21-108 | Two parameter sets that agree on `"frequency"` give every variant the same result; other keys are ignored. |
| `Components.StateIndependent` | Components.py:21-108 | The resistor and both sources succeed for every parameter set and ignore it. |
| `Components.CapacitorCoefficients` | Components/Capacitor.py:22-26 | At every frequency where the capacitor succeeds, `A = 1`, `C = 0` and `B·(2πfC) = -1`. |
| `Components.CapacitorDivisionByZero` | Components.py:41-45 | With a frequency present, the capacitor fails exactly when the frequency or the capacitance is zero. |
| `Components.InductorLinearInFrequency` | Components/Inductance.py:22-26 | The inductor succeeds at every frequency, and doubling the frequency doubles `B`. |
| `Registration.Connect` | Node.py:35-38 | Registering handle `h` with one node appends it to that node's list of the given polarity. No other node and no component changes. |
| `Registration.CheckArguments` | Components/Component.py:22-27 | The constructor's checks pass exactly when the name is a string and both terminals are nodes. |
| `Registration.NewComponent` | Components/Component.py:13-34 | Corrected constructor. The checks run in the order name, `n1`, `n2`, each with its own TypeError message, before anything changes. On success the component takes the next handle, with `n1` as its negative and `n2` as its positive terminal. It is appended to `n1`'s negative list and `n2`'s positive list. No other node changes. |
| `Registration.NewComponentAsWritten` | Components/Component.py:33-34 | The constructor as written. Failures are the same as the corrected one's. On success `n1` gets the handle in both of its lists, and every other node, `n2` included, is unchanged. |
| `Registration.Construct` | Components.py:6-105 | The subclass constructors, with the corrected registration. They succeed exactly when the base checks pass. The new component keeps its name, its terminals and the stored parameter, and the earlier components are kept. It is registered negatively at `n_neg` and positively at `n_pos`. No other list changes, and every node keeps its name and ground flag. |
| `Registration.ConstructAsWritten` | Components/Component.py:33-34 | The subclass constructors as written, inheriting the base registration. Failures are the corrected ones'. On success the new component is stored as in the corrected version, and the earlier components are kept. `n_neg` gains the handle in both lists and keeps its name and ground flag. Every other node, a distinct `n_pos` included, is unchanged. |
| `Registration.ResistorConstruction` | Components/Resistor.py:17-19 | A constructed resistor stores `B = -resistance`. |
| `Registration.CapacitorConstruction` | Components/Capacitor.py:18-20 | With the corrected registration, a constructed capacitor is registered with both terminals and stores its capacitance unchanged. |
| `Registration.InductorConstruction` | Components/Inductance.py:18-20 | With the corrected registration, a constructed inductor is registered with both terminals and stores its inductance unchanged. |
| `Registration.NewComponentLists` | Components/Component.py:33-34 | After corrected construction, each node's lists are its old lists, plus the new handle on the negative list of `n1` and on the positive list of `n2` only. |
| `Registration.NewComponentKeepsConsistent` | Components/Component.py:13-34 | Corrected construction keeps a consistent circuit consistent. Every node lists exactly the components attached to it, with the polarity of the attachment, once. |
| `Registration.AsWrittenBreaksConsistency` | Components/Component.py:33-34 | As written, constructing a component between two different nodes always breaks consistency. `n1` claims a positive attachment that the component does not have. |
| `Linear.Zeros` | Circuit.py:68-70 | The matrix starts as all zeros. |
| `Linear.Ones` | Circuit.py:84 | Assigning a scalar to a numpy row fills it: every entry is 1. |
| `Linear.WriteAll` | Circuit.py:89-93 | Writing one value at each listed column keeps the row's length. Which columns change is stated by `Linear.WriteAllEntries`. |
| `Linear.WriteAllEntries` | Circuit.py:89-93 | A listed column holds the written value, and an unlisted one keeps its old value. |
| `Linear.DotOnes` | Circuit.py:84 | An all-ones row times `x` is the sum of `x`. |
| `Linear.DotWriteAll` | Circuit.py:89-93 | Writing `v` at distinct columns adds `v` times the sum of those unknowns. |
| `Linear.DotUnit` | Circuit.py:104 | A zero row with a single 1, as a both-grounded component row is, times `x` is the one unknown in that column. |
| `Linear.DotBalance` | Circuit.py:89-95 | Writing `+1` at the negatively attached columns and then `-1` at the positively attached ones gives their difference of sums, when the two lists are disjoint. |
| `Assembly.NodeEquation` | Circuit.py:81-95 | Every node row has one entry per unknown and right-hand side 0. |
| `Assembly.NodeEquationEntries` | Circuit.py:81-95 | Ground row: all ones as written, or the unit row at the node. Other nodes: the node-voltage columns stay 0. A component column is `-1` if the component is attached positively, else `+1` if attached negatively, else 0. So a component in both lists ends at `-1`. |
| `Assembly.CompEquation` | Circuit.py:98-125 | Every component row has one entry per unknown. |
| `Assembly.CompEquationEntries` | Circuit.py:102-125 | A component row is nonzero only in its `pos`, `neg` and own columns. With both terminals grounded it is the unit row at its own column with right-hand side 0. Otherwise its own entry is `B`, its right-hand side is `C`, and a non-grounded `pos` holds `A` and a non-grounded `neg` holds `-A`. |
| `Assembly.GeneralRow` | Circuit.py:120-125 | The general branch row has one entry per unknown. |
| `Assembly.GroundedBranchesDropAColumn` | Circuit.py:107-125 | The negative-grounded and positive-grounded rows are the general row with the grounded terminal's column set to 0, an optimisation and not a different equation. With no terminal grounded, the row is the general row. |
| `Assembly.CoeffsOf` | Circuit.py:98-100 | Collecting every component's `get_params` succeeds exactly when each one does, with those coefficients in order. Otherwise the first raising component's exception aborts the whole computation. |
| `Assembly.EquationAt` | Circuit.py:77-125 | The equation at index `k` belongs to the entity that index assignment gives index `k`. For `k < N` it is node `k`'s equation, otherwise component `k - N`'s. It has one entry per unknown. |
| `Assembly.EquationOfEntity` | Circuit.py:77-125 | Each node's and component's own equation sits at the index `Circuits.IndexOf` assigns it, its `id`. |
| `Assembly.Assemble` | Circuit.py:68-125 | Assembly succeeds exactly when every `get_params` does, and yields an `(N+M)×(N+M)` matrix and a right-hand side of length `N+M`. Otherwise it raises a failing component's exception. |
| `Assembly.AssembleInPlace` | Circuit.py:68-125 | The loops as the source runs them compute the assembled system. They start from a zero matrix and an unwritten right-hand side, and no unwritten slot is ever read. |
| `Assembly.WriteNodeRows` | Circuit.py:81-95 | After the node loop, every node slot holds its equation and every component slot is still unwritten. |
| `Assembly.WrittenSlots` | Circuit.py:81-125 | Once both loops have run, every slot holds the equation its index names. |
| `Assembly.FilledSlots` | Circuit.py:71-73 | Once every row is written, no slot of the `np.empty` right-hand side is left unwritten, and the pair is the assembled system. |
| `Assembly.AssembledFrom` | Circuit.py:68-125 | A matrix and right-hand side that hold, index by index, the equations built from the returned coefficients are the assembled system. |
| `Assembly.CoeffsOfSucceeds` | Circuit.py:98-100 | When every component yields its coefficients, collecting them yields exactly those, in order. |
| `Assembly.FirstFailure` | Circuit.py:100 | When the first `j` components succeed and component `j` raises, the whole computation raises component `j`'s exception. |
| `Laws.NodeRowDot` | Circuit.py:81-95 | A node row times `x` is the sum of all unknowns (ground, as written), the node's own voltage (ground, intended), or the negatively attached currents minus the positively attached ones. |
| `Laws.CompRowDot` | Circuit.py:98-125 | A component row times `x` is `A·(V+ - V-) + B·I`, with a grounded terminal read as 0. With both terminals grounded it is `I` alone. |
| `Laws.OneBranchRowDot` | Circuit.py:107-125 | For a component not grounded at both ends, all three branches compute the same left-hand side `A·(V+ - V-) + B·I`. |
| `Laws.NegGroundedBranch` | Circuit.py:108-112 | The negative-grounded row times `x` is `A·V+ + B·I`. |
| `Laws.PosGroundedBranch` | Circuit.py:114-118 | The positive-grounded row times `x` is `A·(-V-) + B·I`. |
| `Laws.FloatingBranch` | Circuit.py:120-125 | The general row times `x` is `A·(V+ - V-) + B·I`. |
| `Laws.SystemIsCircuitLaws` | Circuit.py:81-127 | `x` solves the assembled system exactly when the circuit laws hold at `x`. Those laws are: the ground row as read, current balance at every other node, and every branch equation with the returned coefficients. |
| `Laws.SolvesEquationwise` | Circuit.py:127 | Solving the system means every indexed equation holds. |
| `Laws.EquationsAreLaws` | Circuit.py:81-125 | Every indexed equation holding is the same as every node and branch law holding. |
| `Laws.RowMeaning` | Circuit.py:81-125 | The equation at index `k` holds exactly when the law of the entity at `k` holds. |
| `Laws.ConsistentIsSimple` | Components/Component.py:33-34 | A circuit whose lists agree with its components, with no self-loop on a non-ground node, lists no component twice at a node. |
| `Laws.SolutionsObeyComponentLaws` | Circuit.py:102-125 | Under the intended ground reading every ground node is at 0 V. Every component not grounded at both ends then obeys its physical law at the voltage across it. |
| `Sweep.Names` | Circuit.py:129-137 | The result keys in index order are the node names, then the component names. |
| `Sweep.NameOfEntity` | Circuit.py:129-135 | Each entity's name sits at its assigned index, the index of its unknown in the solution. |
| `Sweep.CollectKeys` | Circuit.py:129-137 | The result dictionary's keys are exactly the names written. |
| `Sweep.CollectLastWins` | Circuit.py:129-137 | A name holds the value of its last write: a later write overwrites an earlier one. |
| `Sweep.ResultKeys` | Circuit.py:129-137 | The results have a key for every node name and every component name, and no other key. |
| `Sweep.NameIn` | Circuit.py:129-137 | A string is a result name exactly when it is some node's or some component's name. |
| `Sweep.ComponentResult` | Circuit.py:134-135 | A component's name maps to its own current unless a later component has the same name. Components win over nodes on a clash. |
| `Sweep.NodeResult` | Circuit.py:131-132 | A node's name maps to its own voltage unless a later node or any component has the same name. |
| `Sweep.DistinctResult` | Circuit.py:129-137 | With distinct names, each name maps to its own entry of the solution. |
| `Sweep.ReadbackResults` | Circuit.py:129-137 | With distinct names, reading the dictionary back by name in index order gives the solution vector again. |
| `Sweep.ResultsInPlace` | Circuit.py:129-137 | The source's two writing loops, nodes first and then components, compute the result dictionary. |
| `Sweep.NodeResults` | Circuit.py:131-132 | The node loop writes each node's voltage under its name, in order, into an empty dictionary. |
| `Sweep.ComponentResults` | Circuit.py:134-135 | The component loop, run over the node entries, completes the result dictionary. Components overwrite any node with the same name. |
| `Sweep.AcSweep` | Circuit.py:61-137 | `ac_sweep` raises a failing `get_params` exception, raises `LinAlgError` when the solver finds no unique solution, and otherwise returns results. It succeeds exactly when assembly succeeds and the solver returns a vector. |
| `Sweep.SweepSucceedsIffLawsDetermineState` | Circuit.py:61-137 | The sweep succeeds exactly when every component yields coefficients and the circuit laws have exactly one solution. Its results are then that solution's, by name. |
| `Sweep.SweepSolution` | Circuit.py:127-137 | A successful sweep reports the unique state the circuit laws allow. |
| `Sweep.UniqueLawsAreFound` | Circuit.py:127-137 | When the laws determine the state, the sweep succeeds with that state's results. |
| `Sweep.AssembledShape` | Circuit.py:68-73 | Every solution of an assembled system has one value per unknown. |
| `Sweep.SolutionsAreLawStates` | Circuit.py:81-127 | The unique solution of the assembled system is the unique state the circuit laws allow, and conversely. |
| `Sweep.Readback` | Circuit.py:129-137 | Reading a dictionary back gives one value per unknown. |
| `Sweep.LawsArePhysical` | Circuit.py:81-125 | Under the intended ground reading, the circuit laws imply the physical reading: every ground node is at 0 V, and every component not grounded at both ends obeys its law. A component grounded at both ends carries no current instead, whatever its law says. |
| `Sweep.SweepReportsPhysicalLaws` | Circuit.py:61-137 | For a circuit with `SimpleConnections` and distinct names, a successful sweep with ground rows read as intended reports every name. Every ground node is at 0 V, and every component not grounded at both ends obeys its law. A component grounded at both ends is reported with no current, so a source between two ground nodes does not obey its own law. |
| `UnitCircuits.TwoNodesBuilt` | UnitTests.py:20-27 | The tests' two-node circuit is a ground node `N0` and a plain node `N1`. |
| `UnitCircuits.OneComponentBuilt` | UnitTests.py:109-147 | Constructing one component from `N0` to `N1`, with the corrected registration, yields the expected circuit. |
| `UnitCircuits.OneComponentSweep` | UnitTests.py:109-147 | One component, with equation `V + B·I = C`, runs from ground to `N1`. It sweeps to `N1 = C` with no current, under either reading of the ground row. `N0` is 0 as intended, or `-C` with the ground row as written. |
| `UnitCircuits.OneComponentResults` | UnitTests.py:109-147 | The results of a one-component circuit are its three values by name. |
| `UnitCircuits.OneComponentSimple` | UnitTests.py:109-147 | The one-component circuit lists no component twice at a node. |
| `UnitCircuits.OneComponentUnique` | UnitTests.py:109-147 | `[g, C, 0]` is the only state the one-component laws allow, where `g` is the reading's ground value. |
| `UnitCircuits.OneComponentSolution` | UnitTests.py:109-147 | Any state satisfying the one-component laws is `[g, C, 0]`, where `g` is the reading's ground value. |
| `UnitCircuits.GroundRowOfThree` | Circuit.py:82-85 | In a circuit with three unknowns, the ground row pins `N0` to 0 as intended. As written, it makes all three unknowns sum to 0. |
| `UnitCircuits.VoltageSourceTest` | UnitTests.py:109-117 | `test_voltage_source`, with the corrected ground row and registration: `N0 = 0`, `N1 = 5`, `V0 = 0`. |
| `UnitCircuits.VoltageSourceAsWritten` | Circuit.py:82-85 | With the ground row as written, `test_voltage_source` reports `N0 = -5` where the test expects 0. |
| `UnitCircuits.ResistorTest` | UnitTests.py:119-127 | `test_resistor`, with the corrected ground row and registration: every value is 0. |
| `UnitCircuits.CapacitorTest` | UnitTests.py:129-137 | `test_capacitor`, with the corrected ground row and registration: every value is 0. |
| `UnitCircuits.InductorTest` | UnitTests.py:139-147 | `test_inductor`, with the corrected ground row and registration: every value is 0. |
| `UnitCircuits.SingleNodeTest` | UnitTests.py:101-107 | `test_single_node`: the ground node is at 0 under either reading of its row. |
| `UnitCircuits.SourceAndResistorBuilt` | UnitTests.py:149-171 | Constructing a source and then a resistor from `N0` to `N1`, with the corrected registration, yields the expected circuit. |
| `UnitCircuits.SourceAndResistorSimple` | UnitTests.py:149-171 | The two-component circuit lists no component twice at a node. |
| `UnitCircuits.SourceAndResistorLaws` | UnitTests.py:149-171 | The two-component circuit's laws are four equations: the ground row, the current balance at `N1`, and the two branch equations. |
| `UnitCircuits.SourceAndResistorResults` | UnitTests.py:149-171 | The results of the two-component circuit are its four values by name. |
| `UnitCircuits.SourceAndResistorSweep` | UnitTests.py:149-171 | When the four equations have exactly one solution, the sweep reports it by name. |
| `UnitCircuits.ResistorCircuitEquations` | UnitTests.py:149-159 | With a 5 V source and 1 kΩ, the equations have exactly one solution. The currents are `-5 mA` and `5 mA` and `N1 = 5`. `N0` is 0 V as intended, or -5 V when the ground row sums all unknowns. |
| `UnitCircuits.ResistorCircuitSweep` | UnitTests.py:149-159 | The resistor circuit's sweep result under either reading of the ground row. |
| `UnitCircuits.ResistorCircuitTest` | UnitTests.py:149-159 | `test_resistor_circuit` with the corrected ground row and registration: `N0 = 0`, `N1 = 5`, `V0 = -0.005`, `R0 = 0.005`. |
| `UnitCircuits.ResistorCircuitAsWritten` | Circuit.py:82-85 | With the ground row as written, `test_resistor_circuit` reports `N0 = -5` where the test expects 0. |
| `UnitCircuits.CurrentSourceEquations` | UnitTests.py:161-171 | With a `-5 mA` source and 1 kΩ, the equations' only solution is `[0, 5, -0.005, 0.005]`. |
| `UnitCircuits.CurrentSourceSweep` | UnitTests.py:161-171 | The current-source circuit sweeps to the values the test expects. |
| `UnitCircuits.CurrentSourceTest` | UnitTests.py:161-171 | `test_current_source`, with the corrected ground row and registration: `N0 = 0`, `N1 = 5`, `I0 = -0.005`, `R0 = 0.005`. |
| `UnitCircuits.SourceAndResistorAsWrittenBuilt` | Components/Component.py:33-34 | With the registration as written, both test components sit twice at `N0` and not at all at `N1`. |
| `UnitCircuits.AsWrittenLaws` | Components/Component.py:33-34 | With the registration as written, `N1`'s balance is `0 = 0`. The laws then fix `N1` and the resistor current, but the source current is free. Under the whole-row reading, the ground value absorbs any change to it. |
| `UnitCircuits.AsWrittenNotSimple` | Components/Component.py:33-34 | With the registration as written, a component whose negative terminal is not ground is listed in both of that node's lists. The result never meets `SimpleConnections`. |
| `UnitCircuits.AsWrittenNotUnique` | Components/Component.py:33-34 | With the registration as written, under either ground reading, no state is the only one the laws allow. |
| `UnitCircuits.RegistrationAsWritten` | Components/Component.py:33-34 | With the registration as written, `test_resistor_circuit` raises `LinAlgError` under either ground reading, because the system is singular. |

## Left out

- Registration.Construct: requires its terminals to be nodes of the circuit, as `Registration.NewComponent` does (see that line). It states the corrected registration, at `n_neg` and `n_pos`. The subclasses inherit Components/Component.py:33-34, which registers at `n_neg` twice; that behaviour is `Registration.ConstructAsWritten`, used by the as-written test circuit.
- A missing frequency raises `KeyError("frequency not provided")`, and a singular system raises numpy's `LinAlgError`; the model uses exactly these errors.
- Nothing in the code checks that a component's terminals belong to the circuit, that names are distinct, or that a ground node exists. The model has no membership check because it cannot state a foreign terminal; see the `Registration.NewComponent` line below. It has no check of names or of a ground node either: a sweep without a ground node just assembles its system, and duplicate names overwrite each other in the results.
- `np.linalg.solve` (Circuit.py:127) is floating-point code in an external library. It is the parameter `solve`, constrained to behave as an exact solver. Rounding and ill-conditioning are not modelled.
- Floating point throughout: values are exact reals, and π is a fixed positive decimal.
- `save`, `load` and `__serialize` (Circuit.py:26-59, 139-146) are file I/O, and the stub `Circuit.add_connection` (Circuit.py:23-24) does nothing.
- The class-level `nodes` and `connections` lists (Circuit.py:8-9) are shared between all circuits in Python. Each circuit here is its own value.
- `Circuit.connections` is never filled by the code. The model treats every constructed component as a member of the circuit whose nodes it joins: `Registration.NewComponent` appends it to `comps`.
- Terminal names: `ac_sweep` reads `n_neg`/`n_pos`, and the base class stores `n1`/`n2`. The model has one pair, `neg = n1 = n_neg` and `pos = n2 = n_pos`.
- The `id` fields the sweep writes onto nodes and components are a pure function, `Circuits.IndexOf`, and not mutated state. `Assembly.EquationAt` and `Sweep.Names` are defined through that assignment.
- Circuits.IndexAssignmentIsBijection: object identity is not modelled; each list position is a distinct object. In the code `add_node` accepts the same Node object twice (Circuit.py:18-21), and one Node can sit in two circuits through the shared class-level list. Such an object gets only its last `id` (Circuit.py:77-78), so an index is skipped: its matrix row stays zero and its `np.empty` slot is never written, which `Assembly.FilledSlots` does not cover. The model gives every position its own index and row instead.
- Registration.NewComponent: `Component` is an abstract base class whose `get_A`, `get_B` and `get_C` (Components/Component.py:36-55) are abstract, and no subclass overrides them. As written, `Resistor(...)`, `Capacitor(...)` and the other constructors therefore raise `TypeError` (cannot instantiate an abstract class) before `__init__` runs. The model leaves this error out and models the construction `__init__` describes, so that a circuit can be built at all.
- Registration.NewComponent: terminals are positions in the circuit value, so the constructors (`NewComponent`, `NewComponentAsWritten`, `Construct`, `ConstructAsWritten`) require them to be nodes of that circuit. `Component.__init__` takes no circuit and accepts any `Node` (Components/Component.py:13-34). A terminal that belongs to no circuit, or to another circuit, is outside the model. So is the input of `test_component_rejection` (UnitTests.py:67-81), a resistor on a node never added, which the code accepts although the test expects a rejection.
- The `__doc__` reassignments (Components.py:111-115, and the last line of each file under Components/) read `Component.get_params`, which the base class does not define. They raise `AttributeError` when the module is imported. Import-time failures are not modelled.
- `components/component.py` (lowercase) is a superseded duplicate base class. `util/Comparable.py` is an equality helper nothing imports. Neither is part of this model.
- `UnitTests.py` is not modelled as code. It calls APIs the sources do not have, such as `Circuit(name)`, `.components` and `Node("N1")` without a ground flag. Its circuits and expected values are the lemmas in `examples.dfy`, with `N1` taken as non-ground.
- Laws.SystemIsCircuitLaws: it and the theorems about meaning built on it assume `SimpleConnections`: no self-loop component and no component listed twice at one node. A self-loop component (both terminals on one non-ground node) gets `-A` in that column, the later write, and `Assembly.CompEquationEntries` states that row. Under the registration as written, every component whose negative terminal is not ground is listed twice at that node (`UnitCircuits.AsWrittenNotSimple`), so none of these theorems applies to such a circuit. Only `Assembly.NodeEquationEntries` describes its rows.
- Sweep.SweepReportsPhysicalLaws: requires distinct names, and `SimpleConnections` as the `Laws.SystemIsCircuitLaws` line describes. With clashing names the dictionary keeps only the last write; `Sweep.ComponentResult` and `Sweep.NodeResult` state which value wins.
- Components.GoverningEquation: reactances are stated as real magnitudes at frequency `f`. The complex-valued AC meaning of the capacitor's and inductor's `B` is not modelled, because the code itself computes with real numbers.

## Findings

| source | as written | input that shows it | evidently intended | confidence | as-written member | corrected member |
|---|---|---|---|---|---|---|
| Circuit.py:84 | `mrx[node.id] = 1` assigns 1 to the whole ground row, so the row says that all unknowns sum to 0 | `test_resistor_circuit` (UnitTests.py:149-159), with the registration corrected: 5 V source and 1 kΩ from ground `N0` to `N1`; the sweep returns `N0 = -5` where the test expects 0. `test_voltage_source` (UnitTests.py:109-117) does the same. | `mrx[node.id, node.id] = 1`, a voltage assignment pinning the ground node to 0 V | not executed | `UnitCircuits.ResistorCircuitAsWritten`, `UnitCircuits.VoltageSourceAsWritten` | `UnitCircuits.ResistorCircuitTest`, `UnitCircuits.VoltageSourceTest` |
| Components/Component.py:34 | `n1.add_connection(self, True)` registers the component with its negative terminal a second time, and never with `n2` | `test_resistor_circuit`: `N1` lists no component, its current balance is `0 = 0`, the source current is free, and the sweep raises `LinAlgError` under either reading of the ground row | `n2.add_connection(self, True)` | not executed | `UnitCircuits.RegistrationAsWritten` | `Registration.NewComponentKeepsConsistent` |

=== FILE: assembly.dfy ===
/** Assembly of the modified-nodal-analysis system of an AC sweep: one
    unknown and one equation per node (its voltage) and per component (its
    branch current), indexed nodes first, then components. */
module Assembly {
  import opened Python
  import opened Nodes
  import opened Components
  import opened Circuits
  import opened Linear

  /** How a ground node's equation is read. As written, `mrx[node.id] = 1`
      on a two-dimensional array fills the whole row with ones, so the
      equation says that all unknowns sum to zero; the evident intent (a
      voltage assignment) is the single diagonal entry, pinning the node's
      own voltage to zero. */
  datatype GroundReading = WholeRow | Diagonal

  /** One row of the matrix and its right-hand-side entry. */
  datatype Equation = Equation(row: seq<real>, rhs: real)

  datatype System = System(matrix: seq<seq<real>>, rhs: seq<real>)

  /** The equation of node `i`: a voltage assignment for a ground node, a
      current balance (KCL) over its attached components otherwise. The
      positive list is written after the negative one, so a component in
      both lists ends up with −1. */
  function NodeEquation(c: Circuit, i: nat, reading: GroundReading): (e: Equation)
    requires WellFormed(c) && i < |c.nodes|
    ensures |e.row| == Size(c) && e.rhs == 0.0
  {
    var size, n := Size(c), c.nodes[i];
    if n.ground then
      if reading == WholeRow then Equation(Ones(size), 0.0)
      else Equation(Zeros(size)[i := 1.0], 0.0)
    else
      assert HandlesBelow(n.negCons, |c.comps|) && HandlesBelow(n.posCons, |c.comps|);
      Equation(WriteAll(WriteAll(Zeros(size), n.negCons, |c.nodes|, 1.0), n.posCons, |c.nodes|, -1.0), 0.0)
  }

  /** The entries of a node's row: all ones (as written) or the unit row
      (as intended) for a ground node; for any other node, zero in every
      node column, and in the column of component `j` −1 when `j` is
      attached positively, else +1 when it is attached negatively, else 0. */
  lemma NodeEquationEntries(c: Circuit, i: nat, reading: GroundReading)
    requires WellFormed(c) && i < |c.nodes|
    ensures var e := NodeEquation(c, i, reading);
      c.nodes[i].ground && reading == WholeRow ==>
        forall k | 0 <= k < Size(c) :: e.row[k] == 1.0
    ensures var e := NodeEquation(c, i, reading);
      c.nodes[i].ground && reading == Diagonal ==>
        forall k | 0 <= k < Size(c) :: e.row[k] == if k == i then 1.0 else 0.0
    ensures var e := NodeEquation(c, i, reading);
      !c.nodes[i].ground ==> forall k | 0 <= k < |c.nodes| :: e.row[k] == 0.0
    ensures var e := NodeEquation(c, i, reading);
      !c.nodes[i].ground ==> forall j | 0 <= j < |c.comps| ::
        e.row[|c.nodes| + j] ==
          if j in c.nodes[i].posCons then -1.0
          else if j in c.nodes[i].negCons then 1.0
          else 0.0
  {
    var size, n := Size(c), c.nodes[i];
    if !n.ground {
      assert HandlesBelow(n.negCons, |c.comps|) && HandlesBelow(n.posCons, |c.comps|);
      var afterNeg := WriteAll(Zeros(size), n.negCons, |c.nodes|, 1.0);
      WriteAllEntries(Zeros(size), n.negCons, |c.nodes|, 1.0);
      WriteAllEntries(afterNeg, n.posCons, |c.nodes|, -1.0);
      forall j | 0 <= j < |c.comps| && j in n.posCons
        ensures Hits(n.posCons, |c.nodes|, |c.nodes| + j)
      {
        var p :| 0 <= p < |n.posCons| && n.posCons[p] == j;
      }
      forall j | 0 <= j < |c.comps| && j in n.negCons
        ensures Hits(n.negCons, |c.nodes|, |c.nodes| + j)
      {
        var p :| 0 <= p < |n.negCons| && n.negCons[p] == j;
      }
    }
  }

  predicate BothGrounded(c: Circuit, j: nat)
    requires WellFormed(c) && j < |c.comps|
  {
    c.nodes[c.comps[j].neg].ground && c.nodes[c.comps[j].pos].ground
  }

  /** The branch equation of component `j` with coefficients `k`, split four
      ways on which terminals are grounded. It touches only the columns of
      the two terminals and of the component itself. */
  function CompEquation(c: Circuit, j: nat, k: Coeffs): (e: Equation)
    requires WellFormed(c) && j < |c.comps|
    ensures |e.row| == Size(c)
  {
    var cm, size, self := c.comps[j], Size(c), |c.nodes| + j;
    var negGround, posGround := c.nodes[cm.neg].ground, c.nodes[cm.pos].ground;
    if negGround && posGround then Equation(Zeros(size)[self := 1.0], 0.0)
    else if negGround then Equation(Zeros(size)[cm.pos := k.a][self := k.b], k.c)
    else if posGround then Equation(Zeros(size)[cm.neg := -k.a][self := k.b], k.c)
    else Equation(Zeros(size)[cm.pos := k.a][cm.neg := -k.a][self := k.b], k.c)
  }

  /** The entries of a component's row: nonzero only in the columns of its
      terminals and its own; the unit row with right-hand side 0 when both
      terminals are grounded; otherwise `B` in its own column, right-hand
      side `C`, `A` at the positive and `−A` at the negative terminal unless
      that terminal is grounded. A self-loop (both terminals on one
      ungrounded node) ends with `−A`, the later write. */
  lemma CompEquationEntries(c: Circuit, j: nat, k: Coeffs)
    requires WellFormed(c) && j < |c.comps|
    ensures var e, cm := CompEquation(c, j, k), c.comps[j];
      forall col | 0 <= col < Size(c) && col != cm.neg && col != cm.pos && col != |c.nodes| + j ::
        e.row[col] == 0.0
    ensures var e := CompEquation(c, j, k); BothGrounded(c, j) ==>
      e.rhs == 0.0 && forall col | 0 <= col < Size(c) :: e.row[col] == if col == |c.nodes| + j then 1.0 else 0.0
    ensures var e := CompEquation(c, j, k); !BothGrounded(c, j) ==>
      e.rhs == k.c && e.row[|c.nodes| + j] == k.b
    ensures var e, cm := CompEquation(c, j, k), c.comps[j];
      !BothGrounded(c, j) && c.nodes[cm.neg].ground ==> e.row[cm.pos] == k.a && e.row[cm.neg] == 0.0
    ensures var e, cm := CompEquation(c, j, k), c.comps[j];
      !BothGrounded(c, j) && c.nodes[cm.pos].ground ==> e.row[cm.neg] == -k.a && e.row[cm.pos] == 0.0
    ensures var e, cm := CompEquation(c, j, k), c.comps[j];
      !c.nodes[cm.neg].ground && !c.nodes[cm.pos].ground ==>
        e.row[cm.neg] == -k.a && (cm.neg != cm.pos ==> e.row[cm.pos] == k.a)
  {
  }

  /** The row of the general (no terminal grounded) branch. */
  function GeneralRow(c: Circuit, j: nat, k: Coeffs): (row: seq<real>)
    requires WellFormed(c) && j < |c.comps|
    ensures |row| == Size(c)
  {
    var cm := c.comps[j];
    Zeros(Size(c))[cm.pos := k.a][cm.neg := -k.a][|c.nodes| + j := k.b]
  }

  /** The two one-terminal-grounded branches are the general branch with
      the grounded terminal's column dropped, as the source's comment
      claims: an optimisation, not a different equation. */
  lemma GroundedBranchesDropAColumn(c: Circuit, j: nat, k: Coeffs)
    requires WellFormed(c) && j < |c.comps| && !BothGrounded(c, j)
    ensures var cm := c.comps[j]; c.nodes[cm.neg].ground ==>
      CompEquation(c, j, k).row == GeneralRow(c, j, k)[cm.neg := 0.0]
    ensures var cm := c.comps[j]; c.nodes[cm.pos].ground ==>
      CompEquation(c, j, k).row == GeneralRow(c, j, k)[cm.pos := 0.0]
    ensures var cm := c.comps[j]; !c.nodes[cm.neg].ground && !c.nodes[cm.pos].ground ==>
      CompEquation(c, j, k).row == GeneralRow(c, j, k)
  {
    var cm := c.comps[j];
    var self := |c.nodes| + j;
    if c.nodes[cm.neg].ground {
      assert cm.neg != cm.pos;
      assert CompEquation(c, j, k).row == GeneralRow(c, j, k)[cm.neg := 0.0];
    }
    if c.nodes[cm.pos].ground {
      assert cm.neg != cm.pos;
      assert CompEquation(c, j, k).row == GeneralRow(c, j, k)[cm.pos := 0.0];
    }
  }

  /** `get_params` of every component, in order; the first one that raises
      aborts the whole computation with its exception. */
  function CoeffsOf(comps: seq<Comp>, state: StateDict): (r: Result<seq<Coeffs>>)
    ensures r.Ok? <==> forall j | 0 <= j < |comps| :: GetParams(comps[j].variant, state).Ok?
    ensures r.Ok? ==> |r.value| == |comps|
    ensures r.Ok? ==> forall j | 0 <= j < |comps| :: GetParams(comps[j].variant, state) == Ok(r.value[j])
    ensures r.Err? ==> exists j | 0 <= j < |comps| ::
      && GetParams(comps[j].variant, state) == Err(r.error)
      && forall j' | 0 <= j' < j :: GetParams(comps[j'].variant, state).Ok?
    decreases |comps|
  {
    if |comps| == 0 then Ok([])
    else
      var k :- GetParams(comps[0].variant, state);
      var ks :- CoeffsOf(comps[1..], state);
      Ok([k] + ks)
  }

  /** The equation at index `k`: that of the entity the index assignment
      gives index `k`, a node's for `k < N` and a component's after. */
  function EquationAt(c: Circuit, ks: seq<Coeffs>, reading: GroundReading, k: nat): (e: Equation)
    requires WellFormed(c) && |ks| == |c.comps| && k < Size(c)
    ensures |e.row| == Size(c)
    ensures k < |c.nodes| ==> e == NodeEquation(c, k, reading)
    ensures k >= |c.nodes| ==> e == CompEquation(c, k - |c.nodes|, ks[k - |c.nodes|])
  {
    match EntityAt(c, k)
    case NodeEntity(i) => NodeEquation(c, i, reading)
    case CompEntity(j) => CompEquation(c, j, ks[j])
  }

  /** Each entity's own equation sits at the index the sweep assigns it. */
  lemma EquationOfEntity(c: Circuit, ks: seq<Coeffs>, reading: GroundReading, e: Entity)
    requires WellFormed(c) && |ks| == |c.comps| && Valid(c, e)
    ensures e.NodeEntity? ==> EquationAt(c, ks, reading, IndexOf(c, e)) == NodeEquation(c, e.i, reading)
    ensures e.CompEntity? ==> EquationAt(c, ks, reading, IndexOf(c, e)) == CompEquation(c, e.j, ks[e.j])
  {
    IndexAssignmentIsBijection(c);
  }

  /** The assembled square system, or the exception of the first component
      whose `get_params` raised. */
  function Assemble(c: Circuit, state: StateDict, reading: GroundReading): (r: Result<System>)
    requires WellFormed(c)
    ensures r.Ok? <==> forall j | 0 <= j < |c.comps| :: GetParams(c.comps[j].variant, state).Ok?
    ensures r.Err? ==> exists j | 0 <= j < |c.comps| ::
      && GetParams(c.comps[j].variant, state) == Err(r.error)
      && forall j' | 0 <= j' < j :: GetParams(c.comps[j'].variant, state).Ok?
    ensures r.Ok? ==> |r.value.matrix| == Size(c) && |r.value.rhs| == Size(c)
    ensures r.Ok? ==> forall k | 0 <= k < Size(c) :: |r.value.matrix[k]| == Size(c)
  {
    var ks :- CoeffsOf(c.comps, state);
    var size := Size(c);
    Ok(System(seq(size, k requires 0 <= k < size => EquationAt(c, ks, reading, k).row),
              seq(size, k requires 0 <= k < size => EquationAt(c, ks, reading, k).rhs)))
  }

  /** The coefficients an assembled system was built from. */
  lemma AssembledRows(c: Circuit, state: StateDict, reading: GroundReading)
    requires WellFormed(c) && Assemble(c, state, reading).Ok?
    ensures CoeffsOf(c.comps, state).Ok?
    ensures var sys, ks := Assemble(c, state, reading).value, CoeffsOf(c.comps, state).value;
      forall k | 0 <= k < Size(c) ::
        sys.matrix[k] == EquationAt(c, ks, reading, k).row && sys.rhs[k] == EquationAt(c, ks, reading, k).rhs
  {
  }

  /** The sweep's assembly as the source performs it: a zero matrix and a
      right-hand side of unwritten slots, the node rows, then the component
      rows with `get_params` called for each component in turn. Every slot
      of the right-hand side is written exactly once before it is read. */
  method AssembleInPlace(c: Circuit, state: StateDict, reading: GroundReading) returns (r: Result<System>)
    requires WellFormed(c)
    ensures r == Assemble(c, state, reading)
  {
    var size, n := Size(c), |c.nodes|;
    var mrx, vct := WriteNodeRows(c, reading);
    var ks: seq<Coeffs> := [];
    var j := 0;
    while j < |c.comps|
      invariant j <= |c.comps| && |mrx| == size && |vct| == size && |ks| == j
      invariant forall k | 0 <= k < n ::
        mrx[k] == NodeEquation(c, k, reading).row && vct[k] == Some(NodeEquation(c, k, reading).rhs)
      invariant forall j' | 0 <= j' < j :: GetParams(c.comps[j'].variant, state) == Ok(ks[j'])
      invariant forall j' | 0 <= j' < j ::
        mrx[n + j'] == CompEquation(c, j', ks[j']).row && vct[n + j'] == Some(CompEquation(c, j', ks[j']).rhs)
      invariant forall k | n + j <= k < size :: vct[k] == None
    {
      var params := GetParams(c.comps[j].variant, state);
      if params.Err? {
        FirstFailure(c.comps, state, j);
        return Err(params.error);
      }
      var e := CompEquation(c, j, params.value);
      assert vct[n + j] == None;
      mrx := mrx[n + j := e.row];
      vct := vct[n + j := Some(e.rhs)];
      ks := ks + [params.value];
      j := j + 1;
    }
    assert WrittenInPlace(c, reading, mrx, vct, ks);
    var rhs := FilledSlots(c, state, reading, mrx, vct, ks);
    return Ok(System(mrx, rhs));
  }

  /** The first loop of the assembly: a zero matrix and unwritten
      right-hand side, with every node's row and right-hand side written. */
  method WriteNodeRows(c: Circuit, reading: GroundReading) returns (mrx: seq<seq<real>>, vct: seq<Option<real>>)
    requires WellFormed(c)
    ensures |mrx| == Size(c) && |vct| == Size(c)
    ensures forall k | 0 <= k < |c.nodes| ::
      mrx[k] == NodeEquation(c, k, reading).row && vct[k] == Some(NodeEquation(c, k, reading).rhs)
    ensures forall k | |c.nodes| <= k < Size(c) :: vct[k] == None
  {
    var size, n := Size(c), |c.nodes|;
    mrx := seq(size, _ => Zeros(size));
    vct := seq(size, _ => None);
    var i := 0;
    while i < n
      invariant i <= n && |mrx| == size && |vct| == size
      invariant forall k | 0 <= k < i ::
        mrx[k] == NodeEquation(c, k, reading).row && vct[k] == Some(NodeEquation(c, k, reading).rhs)
      invariant forall k | i <= k < size :: vct[k] == None
    {
      var e := NodeEquation(c, i, reading);
      assert vct[i] == None;
      mrx := mrx[i := e.row];
      vct := vct[i := Some(e.rhs)];
      i := i + 1;
    }
  }

  /** The rows written in place, as equations with known coefficients. */
  ghost predicate WrittenInPlace(c: Circuit, reading: GroundReading, mrx: seq<seq<real>>, vct: seq<Option<real>>, ks: seq<Coeffs>)
    requires WellFormed(c) && |ks| == |c.comps|
  {
    && |mrx| == Size(c) && |vct| == Size(c)
    && (forall k | 0 <= k < |c.nodes| ::
          mrx[k] == NodeEquation(c, k, reading).row && vct[k] == Some(NodeEquation(c, k, reading).rhs))
    && (forall j | 0 <= j < |c.comps| ::
          mrx[|c.nodes| + j] == CompEquation(c, j, ks[j]).row && vct[|c.nodes| + j] == Some(CompEquation(c, j, ks[j]).rhs))
  }

  /** Every slot of an in-place assembly holds the equation its index names. */
  lemma WrittenSlots(c: Circuit, reading: GroundReading, mrx: seq<seq<real>>, vct: seq<Option<real>>, ks: seq<Coeffs>)
    requires WellFormed(c) && |ks| == |c.comps| && WrittenInPlace(c, reading, mrx, vct, ks)
    ensures forall k | 0 <= k < Size(c) ::
      mrx[k] == EquationAt(c, ks, reading, k).row && vct[k] == Some(EquationAt(c, ks, reading, k).rhs)
  {
    forall k | |c.nodes| <= k < Size(c)
      ensures mrx[k] == EquationAt(c, ks, reading, k).row && vct[k] == Some(EquationAt(c, ks, reading, k).rhs)
    {
      var j := k - |c.nodes|;
      assert k == |c.nodes| + j;
    }
  }

  /** Once every row has been written, the right-hand side has no unwritten
      slot left and the pair is the assembled system. */
  function FilledSlots(c: Circuit, state: StateDict, reading: GroundReading,
                       mrx: seq<seq<real>>, vct: seq<Option<real>>, ks: seq<Coeffs>): (rhs: seq<real>)
    requires WellFormed(c) && |ks| == |c.comps| && WrittenInPlace(c, reading, mrx, vct, ks)
    requires forall j | 0 <= j < |c.comps| :: GetParams(c.comps[j].variant, state) == Ok(ks[j])
    ensures |rhs| == Size(c)
    ensures forall k | 0 <= k < Size(c) :: vct[k] == Some(rhs[k])
    ensures Assemble(c, state, reading) == Ok(System(mrx, rhs))
  {
    WrittenSlots(c, reading, mrx, vct, ks);
    var size := Size(c);
    var rhs := seq(size, k requires 0 <= k < size => vct[k].value);
    AssembledFrom(c, state, reading, ks, mrx, rhs);
    rhs
  }

  /** A matrix and right-hand side that hold, index by index, the
      equations built from the components' coefficients are the assembled
      system. */
  lemma AssembledFrom(c: Circuit, state: StateDict, reading: GroundReading, ks: seq<Coeffs>,
                      mrx: seq<seq<real>>, rhs: seq<real>)
    requires WellFormed(c) && |ks| == |c.comps| && |mrx| == Size(c) && |rhs| == Size(c)
    requires forall j | 0 <= j < |c.comps| :: GetParams(c.comps[j].variant, state) == Ok(ks[j])
    requires forall k | 0 <= k < Size(c) ::
      mrx[k] == EquationAt(c, ks, reading, k).row && rhs[k] == EquationAt(c, ks, reading, k).rhs
    ensures Assemble(c, state, reading) == Ok(System(mrx, rhs))
  {
    CoeffsOfSucceeds(c.comps, state, ks);
    AssembledRows(c, state, reading);
    var sys := Assemble(c, state, reading).value;
    assert sys.matrix == mrx;
    assert sys.rhs == rhs;
  }

  lemma CoeffsOfSucceeds(comps: seq<Comp>, state: StateDict, ks: seq<Coeffs>)
    requires |ks| == |comps|
    requires forall j | 0 <= j < |comps| :: GetParams(comps[j].variant, state) == Ok(ks[j])
    ensures CoeffsOf(comps, state) == Ok(ks)
  {
    var r := CoeffsOf(comps, state);
    assert r.Ok?;
    assert r.value == ks;
  }

  /** When the first `j` components succeed and component `j` raises, the
      whole computation raises component `j`'s exception. */
  lemma FirstFailure(comps: seq<Comp>, state: StateDict, j: nat)
    requires j < |comps| && GetParams(comps[j].variant, state).Err?
    requires forall j' | 0 <= j' < j :: GetParams(comps[j'].variant, state).Ok?
    ensures CoeffsOf(comps, state) == Err(GetParams(comps[j].variant, state).error)
  {
    var r := CoeffsOf(comps, state);
    var j0 :| 0 <= j0 < |comps| && GetParams(comps[j0].variant, state) == Err(r.error)
      && forall j' | 0 <= j' < j0 :: GetParams(comps[j'].variant, state).Ok?;
    assert j0 == j;
  }
}

=== FILE: circuits.dfy ===
/** A circuit as a value: its nodes and components in insertion order.
    Nodes refer to components, and components to nodes, by position. */
module Circuits {
  import opened Python
  import opened Nodes
  import opened Components
  import opened Linear

  datatype Circuit = Circuit(nodes: seq<Node>, comps: seq<Comp>)

  const Empty := Circuit([], [])

  const NotANode := "argument node is not of type Node"

  /** The argument of `add_node`: a Node object, or any other Python value. */
  datatype NodeArg = NodeObj(node: Node) | Other(value: Value)

  /** `add_node`: anything but a Node raises TypeError; a Node is appended
      at the end, and every earlier node and every component is kept. */
  function AddNode(c: Circuit, arg: NodeArg): (r: Result<Circuit>)
    ensures r.Ok? <==> arg.NodeObj?
    ensures r.Err? ==> r.error == TypeError(NotANode)
    ensures r.Ok? ==> |r.value.nodes| == |c.nodes| + 1 && r.value.nodes[|c.nodes|] == arg.node
    ensures r.Ok? ==> r.value.nodes[..|c.nodes|] == c.nodes && r.value.comps == c.comps
  {
    if !arg.NodeObj? then Err(TypeError(NotANode))
    else Ok(c.(nodes := c.nodes + [arg.node]))
  }

  /** Number of unknowns, and of equations: one per node and one per component. */
  function Size(c: Circuit): nat {
    |c.nodes| + |c.comps|
  }

  ghost predicate HandlesBelow(hs: seq<nat>, bound: nat) {
    forall p | 0 <= p < |hs| :: hs[p] < bound
  }

  /** Every handle names an existing node or component. */
  ghost predicate WellFormed(c: Circuit) {
    && (forall j | 0 <= j < |c.comps| :: c.comps[j].neg < |c.nodes| && c.comps[j].pos < |c.nodes|)
    && (forall i | 0 <= i < |c.nodes| ::
          HandlesBelow(c.nodes[i].posCons, |c.comps|) && HandlesBelow(c.nodes[i].negCons, |c.comps|))
  }

  /** Each node lists exactly the components attached to it, with the
      polarity of the attachment, each at most once. */
  ghost predicate Consistent(c: Circuit) {
    && WellFormed(c)
    && (forall i | 0 <= i < |c.nodes| :: NoRepeats(c.nodes[i].negCons) && NoRepeats(c.nodes[i].posCons))
    && (forall i, j | 0 <= i < |c.nodes| && 0 <= j < |c.comps| ::
          j in c.nodes[i].negCons <==> c.comps[j].neg == i)
    && (forall i, j | 0 <= i < |c.nodes| && 0 <= j < |c.comps| ::
          j in c.nodes[i].posCons <==> c.comps[j].pos == i)
  }

  /** Adding a freshly constructed node (no connections) keeps a circuit consistent. */
  lemma AddNodeKeepsConsistent(c: Circuit, n: Node)
    requires Consistent(c)
    requires n.posCons == [] && n.negCons == []
    ensures AddNode(c, NodeObj(n)).Ok? && Consistent(AddNode(c, NodeObj(n)).value)
  {
    var c' := AddNode(c, NodeObj(n)).value;
    forall i, j | 0 <= i < |c'.nodes| && 0 <= j < |c'.comps|
      ensures j in c'.nodes[i].negCons <==> c'.comps[j].neg == i
      ensures j in c'.nodes[i].posCons <==> c'.comps[j].pos == i
    {
      if i == |c.nodes| {
        assert c.comps[j].neg < |c.nodes| && c.comps[j].pos < |c.nodes|;
      } else {
        assert c'.nodes[i] == c.nodes[i];
      }
    }
  }

  /** An unknown of the system: a node voltage or a component current. */
  datatype Entity = NodeEntity(i: nat) | CompEntity(j: nat)

  predicate Valid(c: Circuit, e: Entity) {
    match e
    case NodeEntity(i) => i < |c.nodes|
    case CompEntity(j) => j < |c.comps|
  }

  /** The entities in the order the sweep enumerates them: nodes, then components. */
  function Enumeration(c: Circuit): (r: seq<Entity>)
    ensures |r| == Size(c)
  {
    seq(|c.nodes|, i requires 0 <= i => NodeEntity(i)) + seq(|c.comps|, j requires 0 <= j => CompEntity(j))
  }

  /** The equation index of an entity: its position in the enumeration. */
  function IndexOf(c: Circuit, e: Entity): (k: nat)
    requires Valid(c, e)
    ensures k < Size(c) && Enumeration(c)[k] == e
    ensures e.NodeEntity? <==> k < |c.nodes|
  {
    match e
    case NodeEntity(i) => i
    case CompEntity(j) => |c.nodes| + j
  }

  /** The entity whose unknown and equation sit at index `k`. */
  function EntityAt(c: Circuit, k: nat): (e: Entity)
    requires k < Size(c)
    ensures Valid(c, e) && IndexOf(c, e) == k
  {
    Enumeration(c)[k]
  }

  /** Index assignment is a bijection between the valid entities and
      `0 .. Size(c) - 1`: no index is shared, and every index is used. */
  lemma IndexAssignmentIsBijection(c: Circuit)
    ensures forall e1, e2 | Valid(c, e1) && Valid(c, e2) :: IndexOf(c, e1) == IndexOf(c, e2) ==> e1 == e2
    ensures forall k | 0 <= k < Size(c) :: Valid(c, Enumeration(c)[k]) && IndexOf(c, Enumeration(c)[k]) == k
    ensures forall p, q | 0 <= p < q < Size(c) :: Enumeration(c)[p] != Enumeration(c)[q]
  {
  }
}

=== FILE: components.dfy ===
/** The five component variants and the coefficients `(A, B, C)` of each
    one's governing equation `A·V + B·I = C`, where `V` is the voltage of the
    positive terminal minus that of the negative one and `I` is the branch
    current from the negative to the positive terminal. */
module Components {
  import opened Python

  /** The stored parameter of each variant. A resistor stores `B`, the
      negated resistance; the others store their physical parameter. */
  datatype Variant =
    | Resistor(b: real)
    | Capacitor(capacitance: real)
    | Inductor(inductance: real)
    | VoltageSource(voltage: real)
    | CurrentSource(current: real)

  /** A component: its name, the handles of its negative and positive
      terminal nodes, and its variant. */
  datatype Comp = Comp(name: string, neg: nat, pos: nat, variant: Variant)

  datatype Coeffs = Coeffs(a: real, b: real, c: real)

  /** The parameter set handed to a sweep. */
  type StateDict = map<string, real>

  const Frequency := "frequency"
  const FrequencyMissing := "frequency not provided"

  /** `math.pi` as a double, written in decimal. */
  const Pi: real := 3.141592653589793

  /** The variant stored by each subclass constructor for its numeric argument. */
  datatype Kind = ResistorKind | CapacitorKind | InductorKind | VoltageSourceKind | CurrentSourceKind

  function VariantOf(kind: Kind, parameter: real): (v: Variant)
    ensures kind == ResistorKind ==> v.Resistor? && v.b == -parameter
    ensures kind == CapacitorKind ==> v.Capacitor? && v.capacitance == parameter
    ensures kind == InductorKind ==> v.Inductor? && v.inductance == parameter
    ensures kind == VoltageSourceKind ==> v.VoltageSource? && v.voltage == parameter
    ensures kind == CurrentSourceKind ==> v.CurrentSource? && v.current == parameter
  {
    match kind
    case ResistorKind => Resistor(-parameter)
    case CapacitorKind => Capacitor(parameter)
    case InductorKind => Inductor(parameter)
    case VoltageSourceKind => VoltageSource(parameter)
    case CurrentSourceKind => CurrentSource(parameter)
  }

  predicate NeedsFrequency(v: Variant) {
    v.Capacitor? || v.Inductor?
  }

  /** `get_params(state_dict)` of each variant. Capacitor and inductor raise
      KeyError without a frequency; the capacitor's division raises
      ZeroDivisionError when `2·π·f·C` is zero. */
  function GetParams(v: Variant, state: StateDict): (r: Result<Coeffs>)
    ensures NeedsFrequency(v) && Frequency !in state ==> r == Err(KeyError(FrequencyMissing))
    ensures r.Err? ==> NeedsFrequency(v)
    ensures r.Err? && Frequency in state ==> v.Capacitor? && r == Err(ZeroDivisionError)
    ensures r.Ok? && !v.CurrentSource? ==> r.value.a == 1.0
    ensures r.Ok? && (v.Resistor? || v.Capacitor? || v.Inductor?) ==> r.value.c == 0.0
  {
    match v
    case Resistor(b) => Ok(Coeffs(1.0, b, 0.0))
    case Capacitor(cap) =>
      if Frequency !in state then Err(KeyError(FrequencyMissing))
      else
        var d := 2.0 * Pi * state[Frequency] * cap;
        if d == 0.0 then Err(ZeroDivisionError) else Ok(Coeffs(1.0, -1.0 / d, 0.0))
    case Inductor(l) =>
      if Frequency !in state then Err(KeyError(FrequencyMissing))
      else Ok(Coeffs(1.0, -2.0 * Pi * state[Frequency] * l, 0.0))
    case VoltageSource(vs) => Ok(Coeffs(1.0, 0.0, vs))
    case CurrentSource(i) => Ok(Coeffs(0.0, 1.0, i))
  }

  /** The left-hand side `A·V + B·I` of a governing equation. */
  function Lhs(k: Coeffs, voltage: real, current: real): real {
    k.a * voltage + k.b * current
  }

  /** `A·V + B·I = C`. */
  predicate Satisfies(k: Coeffs, voltage: real, current: real) {
    Lhs(k, voltage, current) == k.c
  }

  /** The physical law of each variant at angular frequency `2·π·f`, stated
      independently of the coefficients (reactances as real magnitudes). */
  ghost predicate Law(v: Variant, f: real, voltage: real, current: real) {
    match v
    case Resistor(b) => voltage == -b * current
    case Capacitor(cap) => 2.0 * Pi * f * cap * voltage == current
    case Inductor(l) => voltage == 2.0 * Pi * f * l * current
    case VoltageSource(vs) => voltage == vs
    case CurrentSource(i) => current == i
  }

  /** The frequency a variant sees: the state's, when it has one. */
  function FrequencyOf(state: StateDict): real {
    if Frequency in state then state[Frequency] else 0.0
  }

  /** Whenever `get_params` returns coefficients, a voltage/current pair
      satisfies `A·V + B·I = C` exactly when it obeys the variant's law. */
  lemma GoverningEquation(v: Variant, state: StateDict, voltage: real, current: real)
    requires GetParams(v, state).Ok?
    ensures Satisfies(GetParams(v, state).value, voltage, current) <==>
      Law(v, FrequencyOf(state), voltage, current)
  {
    if v.Capacitor? {
      var d := 2.0 * Pi * state[Frequency] * v.capacitance;
      assert d != 0.0;
      calc {
        voltage + (-1.0 / d) * current == 0.0;
        <==> { assert d * (voltage + (-1.0 / d) * current) == d * voltage - current; }
        d * voltage - current == 0.0;
      }
    }
  }

  /** A resistor constructed with resistance `R` obeys Ohm's law `V = R·I`,
      with any parameter set, the empty one included. */
  lemma OhmsLaw(resistance: real, state: StateDict, voltage: real, current: real)
    ensures GetParams(VariantOf(ResistorKind, resistance), state) == Ok(Coeffs(1.0, -resistance, 0.0))
    ensures GetParams(VariantOf(ResistorKind, resistance), map[]).Ok?
    ensures Satisfies(GetParams(VariantOf(ResistorKind, resistance), state).value, voltage, current) <==>
      voltage == resistance * current
  {
  }

  /** `get_params` consults only the "frequency" key: two parameter sets
      that agree on it give the same coefficients for every variant. */
  lemma OnlyFrequencyMatters(v: Variant, s1: StateDict, s2: StateDict)
    requires Frequency in s1 <==> Frequency in s2
    requires Frequency in s1 ==> s1[Frequency] == s2[Frequency]
    ensures GetParams(v, s1) == GetParams(v, s2)
  {
    if NeedsFrequency(v) && Frequency in s1 {
      var r1, r2 := GetParams(v, s1), GetParams(v, s2);
      assert r1.Ok? <==> r2.Ok?;
      if r1.Ok? {
        assert r1.value == r2.value;
      } else {
        assert r1.error == r2.error;
      }
    }
  }

  /** Sources and the resistor ignore the parameter set entirely. */
  lemma StateIndependent(v: Variant, s1: StateDict, s2: StateDict)
    requires !NeedsFrequency(v)
    ensures GetParams(v, s1) == GetParams(v, s2)
    ensures GetParams(v, s1).Ok?
  {
  }

  /** Capacitor: for every frequency at which it succeeds, `A = 1` and `C = 0`,
      and `B·(2·π·f·C) = −1`. */
  lemma CapacitorCoefficients(capacitance: real, f: real)
    requires f * capacitance != 0.0
    ensures var r := GetParams(VariantOf(CapacitorKind, capacitance), map[Frequency := f]);
      && r.Ok? && r.value.a == 1.0 && r.value.c == 0.0
      && r.value.b * (2.0 * Pi * f * capacitance) == -1.0
  {
  }

  /** With a frequency present, the capacitor fails exactly when the
      frequency or the capacitance is zero. */
  lemma CapacitorDivisionByZero(capacitance: real, state: StateDict)
    requires Frequency in state
    ensures GetParams(Capacitor(capacitance), state).Err? <==> state[Frequency] * capacitance == 0.0
  {
    var f := state[Frequency];
    assert 2.0 * Pi * f * capacitance == (2.0 * Pi) * (f * capacitance);
  }

  /** Inductor: `B` is linear in the frequency, so doubling `f` doubles `B`. */
  lemma InductorLinearInFrequency(inductance: real, f: real)
    ensures var r1 := GetParams(VariantOf(InductorKind, inductance), map[Frequency := f]);
      var r2 := GetParams(VariantOf(InductorKind, inductance), map[Frequency := 2.0 * f]);
      r1.Ok? && r2.Ok? && r2.value.b == 2.0 * r1.value.b
  {
  }
}

=== FILE: examples.dfy ===
/** The circuits of the repository's AC-analysis unit tests, built through
    the modelled constructors, and what the sweep makes of them. */
module UnitCircuits {
  import opened Python
  import opened Nodes
  import opened Components
  import opened Circuits
  import opened Registration
  import opened Linear
  import opened Assembly
  import opened Laws
  import opened Sweep

  /** The parameters every test sweeps with: `{"frequency": 1e3}`. */
  const Khz: StateDict := map[Frequency := 1000.0]

  /** `two_node_circuit()`: a ground node `N0`, then an ordinary node `N1`. */
  function TwoNodeCircuit(): Result<Circuit> {
    var n0 :- NewNode(Str("N0"), Bool(true));
    var n1 :- NewNode(Str("N1"), Bool(false));
    var c :- AddNode(Empty, NodeObj(n0));
    AddNode(c, NodeObj(n1))
  }

  /** A two-node test circuit with one component from `N0` to `N1`. */
  function OneComponentCircuit(kind: Kind, name: string, parameter: real): Result<Circuit> {
    var c :- TwoNodeCircuit();
    Construct(c, kind, Str(name), NodeRef(0), NodeRef(1), parameter)
  }

  /** The circuit of the one-component tests, as a value: the component
      is a negative connection of `N0` and a positive one of `N1`. */
  function OneComponent(name: string, v: Variant): Circuit {
    Circuit([Node("N0", true, [], [0]), Node("N1", false, [0], [])], [Comp(name, 0, 1, v)])
  }

  /** The circuit of `two_node_circuit()`, as a value. */
  const TwoNodes := Circuit([Node("N0", true, [], []), Node("N1", false, [], [])], [])

  lemma TwoNodesBuilt()
    ensures TwoNodeCircuit() == Ok(TwoNodes)
  {
    var n0, n1 := Node("N0", true, [], []), Node("N1", false, [], []);
    assert NewNode(Str("N0"), Bool(true)) == Ok(n0) && NewNode(Str("N1"), Bool(false)) == Ok(n1);
    assert AddNode(Empty, NodeObj(n0)) == Ok(Circuit([n0], []));
    assert [n0] + [n1] == [n0, n1];
  }

  lemma OneComponentBuilt(kind: Kind, name: string, parameter: real)
    ensures OneComponentCircuit(kind, name, parameter) == Ok(OneComponent(name, VariantOf(kind, parameter)))
  {
    var two := TwoNodes;
    TwoNodesBuilt();
    var r := NewComponent(two, Str(name), NodeRef(0), NodeRef(1), VariantOf(kind, parameter)).value;
    assert r.nodes[0] == Node("N0", true, [], [0]);
    assert r.nodes[1] == Node("N1", false, [0], []);
    assert r.nodes == [r.nodes[0], r.nodes[1]];
    assert r.comps == [Comp(name, 0, 1, VariantOf(kind, parameter))];
    assert Construct(two, kind, Str(name), NodeRef(0), NodeRef(1), parameter) == Ok(r);
  }

  /** The value the ground node `N0` takes in a one-component circuit whose
      equation fixes `N1` at `v1`: 0 V as intended, and `−v1` when its row
      makes all unknowns sum to 0. */
  function GroundValue(reading: GroundReading, v1: real): real {
    if reading == Diagonal then 0.0 else -v1
  }

  /** With one component from the ground node `N0` to `N1` whose equation
      reads `V + B·I = C`, the sweep reports `N1 = C` and no current: the
      component's current is all that enters `N1`, so it is 0, and its
      equation then fixes the voltage. `N0` is 0 V as intended, and `−C`
      with the ground row as written. */
  lemma OneComponentSweep(name: string, v: Variant, reading: GroundReading, solve: System -> Option<seq<real>>)
    requires ExactSolver(solve) && name != "N0" && name != "N1"
    requires GetParams(v, Khz).Ok? && GetParams(v, Khz).value.a == 1.0
    ensures AcSweep(OneComponent(name, v), Khz, reading, solve) ==
      Ok(map["N0" := GroundValue(reading, GetParams(v, Khz).value.c), "N1" := GetParams(v, Khz).value.c, name := 0.0])
  {
    var c, k := OneComponent(name, v), GetParams(v, Khz).value;
    var x := [GroundValue(reading, k.c), k.c, 0.0];
    OneComponentSimple(name, v);
    CoeffsOfSucceeds(c.comps, Khz, [k]);
    OneComponentUnique(name, v, k, reading);
    UniqueLawsAreFound(c, Khz, reading, solve, x);
    OneComponentResults(name, v, x);
  }

  lemma OneComponentResults(name: string, v: Variant, x: seq<real>)
    requires |x| == 3
    ensures Results(OneComponent(name, v), x) == map["N0" := x[0], "N1" := x[1], name := x[2]]
  {
    var names := ["N0", "N1", name];
    assert Names(OneComponent(name, v)) == names;
    assert Collect(names[..1], x[..1]) == map["N0" := x[0]] by {
      assert names[..1][..0] == [] && x[..1][..0] == [];
    }
    assert Collect(names[..2], x[..2]) == map["N0" := x[0], "N1" := x[1]] by {
      assert names[..2][..1] == names[..1] && x[..2][..1] == x[..1];
    }
    assert names[..3][..2] == names[..2] && x[..3][..2] == x[..2];
  }

  lemma OneComponentSimple(name: string, v: Variant)
    ensures SimpleConnections(OneComponent(name, v))
  {
    assert HandlesBelow(OneComponent(name, v).nodes[1].posCons, 1);
  }

  /** The ground row of a three-unknown circuit, under either reading. */
  lemma GroundRowOfThree(c: Circuit, y: seq<real>, reading: GroundReading)
    requires WellFormed(c) && |c.nodes| == 2 && |c.comps| == 1 && |y| == 3 && c.nodes[0].ground
    ensures NodeLaw(c, y, reading, 0) <==>
      if reading == Diagonal then y[0] == 0.0 else y[0] + y[1] + y[2] == 0.0
  {
    assert Total(y) == y[0] + y[1] + y[2] by {
      assert y[1..][1..] == y[2..] && y[2..][1..] == [];
      assert Total(y[2..]) == y[2];
      assert Total(y[1..]) == y[1] + y[2];
    }
  }

  /** The laws of the one-component circuit hold for `[g, C, 0]`, with `g`
      the ground value of the reading, and for nothing else. */
  lemma OneComponentUnique(name: string, v: Variant, k: Coeffs, reading: GroundReading)
    requires k.a == 1.0
    ensures WellFormed(OneComponent(name, v))
    ensures UniqueLaws(OneComponent(name, v), [k], [GroundValue(reading, k.c), k.c, 0.0], reading)
  {
    var c, x := OneComponent(name, v), [GroundValue(reading, k.c), k.c, 0.0];
    assert WellFormed(c) by {
      OneComponentSimple(name, v);
    }
    assert CircuitLaws(c, [k], x, reading) by {
      GroundRowOfThree(c, x, reading);
      assert NodeLaw(c, x, reading, 0);
      assert SumAt(x, [0], 2) == 0.0;
      assert NodeLaw(c, x, reading, 1);
      assert Potential(c, x, 1) - Potential(c, x, 0) == k.c;
      assert BranchLaw(c, [k], x, 0);
    }
    forall y | |y| == 3 && CircuitLaws(c, [k], y, reading)
      ensures y == x
    {
      OneComponentSolution(name, v, k, y, reading);
    }
  }

  lemma OneComponentSolution(name: string, v: Variant, k: Coeffs, y: seq<real>, reading: GroundReading)
    requires k.a == 1.0 && |y| == 3
    requires WellFormed(OneComponent(name, v)) && CircuitLaws(OneComponent(name, v), [k], y, reading)
    ensures y == [GroundValue(reading, k.c), k.c, 0.0]
  {
    var c := OneComponent(name, v);
    assert NodeLaw(c, y, reading, 0) && NodeLaw(c, y, reading, 1) && BranchLaw(c, [k], y, 0);
    GroundRowOfThree(c, y, reading);
    assert SumAt(y, [0], 2) == y[2];
    assert y[2] == 0.0;
    assert Potential(c, y, 1) - Potential(c, y, 0) == y[1];
    assert Lhs(k, y[1], y[2]) == k.c;
    assert k.b * y[2] == 0.0;
    UnitScale(y[1]);
    assert y[1] == k.c;
    assert y[0] == GroundValue(reading, k.c);
    assert y == [y[0], y[1], y[2]];
  }

  /** A test's circuit is built without error and sweeps to `expected`. */
  ghost predicate SweepsTo(r: Result<Circuit>, reading: GroundReading, solve: System -> Option<seq<real>>,
                           expected: map<string, real>) {
    && r.Ok? && WellFormed(r.value) && ExactSolver(solve)
    && AcSweep(r.value, Khz, reading, solve) == Ok(expected)
  }

  /** `test_voltage_source`: `N0 = 0`, `N1 = 5`, no current. */
  lemma VoltageSourceTest(solve: System -> Option<seq<real>>)
    requires ExactSolver(solve)
    ensures SweepsTo(OneComponentCircuit(VoltageSourceKind, "V0", 5.0), Diagonal, solve,
                     map["N0" := 0.0, "N1" := 5.0, "V0" := 0.0])
  {
    OneComponentBuilt(VoltageSourceKind, "V0", 5.0);
    OneComponentSimple("V0", VoltageSource(5.0));
    OneComponentSweep("V0", VoltageSource(5.0), Diagonal, solve);
  }

  /** `test_voltage_source` with the ground row as written (all ones): the
      sweep succeeds but reports −5 V at the ground node `N0`, where the
      test expects 0. */
  lemma VoltageSourceAsWritten(solve: System -> Option<seq<real>>)
    requires ExactSolver(solve)
    ensures SweepsTo(OneComponentCircuit(VoltageSourceKind, "V0", 5.0), WholeRow, solve,
                     map["N0" := -5.0, "N1" := 5.0, "V0" := 0.0])
  {
    OneComponentBuilt(VoltageSourceKind, "V0", 5.0);
    OneComponentSimple("V0", VoltageSource(5.0));
    OneComponentSweep("V0", VoltageSource(5.0), WholeRow, solve);
  }

  /** `test_resistor`: everything is 0. */
  lemma ResistorTest(solve: System -> Option<seq<real>>)
    requires ExactSolver(solve)
    ensures SweepsTo(OneComponentCircuit(ResistorKind, "R0", 1000.0), Diagonal, solve,
                     map["N0" := 0.0, "N1" := 0.0, "R0" := 0.0])
  {
    OneComponentBuilt(ResistorKind, "R0", 1000.0);
    OneComponentSimple("R0", Resistor(-1000.0));
    OneComponentSweep("R0", Resistor(-1000.0), Diagonal, solve);
  }

  /** `test_capacitor`: everything is 0. */
  lemma CapacitorTest(solve: System -> Option<seq<real>>)
    requires ExactSolver(solve)
    ensures SweepsTo(OneComponentCircuit(CapacitorKind, "C0", 0.000001), Diagonal, solve,
                     map["N0" := 0.0, "N1" := 0.0, "C0" := 0.0])
  {
    OneComponentBuilt(CapacitorKind, "C0", 0.000001);
    OneComponentSimple("C0", Capacitor(0.000001));
    assert 2.0 * Pi * Khz[Frequency] * 0.000001 != 0.0;
    OneComponentSweep("C0", Capacitor(0.000001), Diagonal, solve);
  }

  /** `test_inductor`: everything is 0. */
  lemma InductorTest(solve: System -> Option<seq<real>>)
    requires ExactSolver(solve)
    ensures SweepsTo(OneComponentCircuit(InductorKind, "L0", 0.001), Diagonal, solve,
                     map["N0" := 0.0, "N1" := 0.0, "L0" := 0.0])
  {
    OneComponentBuilt(InductorKind, "L0", 0.001);
    OneComponentSimple("L0", Inductor(0.001));
    OneComponentSweep("L0", Inductor(0.001), Diagonal, solve);
  }

  /** A source `name` from `N0` to `N1` (component 0), then the resistor
      `R0` of 1 kΩ between the same nodes (component 1). */
  function SourceAndResistorCircuit(kind: Kind, name: string, parameter: real): Result<Circuit> {
    var c :- OneComponentCircuit(kind, name, parameter);
    Construct(c, ResistorKind, Str("R0"), NodeRef(0), NodeRef(1), 1000.0)
  }

  /** The circuit of the two-component tests, as a value. */
  function SourceAndResistor(name: string, v: Variant): Circuit {
    Circuit([Node("N0", true, [], [0, 1]), Node("N1", false, [0, 1], [])],
            [Comp(name, 0, 1, v), Comp("R0", 0, 1, Resistor(-1000.0))])
  }

  lemma SourceAndResistorBuilt(kind: Kind, name: string, parameter: real)
    ensures SourceAndResistorCircuit(kind, name, parameter) == Ok(SourceAndResistor(name, VariantOf(kind, parameter)))
  {
    var v := VariantOf(kind, parameter);
    OneComponentBuilt(kind, name, parameter);
    var one := OneComponent(name, v);
    var r := NewComponent(one, Str("R0"), NodeRef(0), NodeRef(1), Resistor(-1000.0)).value;
    assert r.nodes[0] == Node("N0", true, [], [0, 1]);
    assert r.nodes[1] == Node("N1", false, [0, 1], []);
    assert r.nodes == [r.nodes[0], r.nodes[1]];
    assert r.comps == [Comp(name, 0, 1, v), Comp("R0", 0, 1, Resistor(-1000.0))];
    assert Construct(one, ResistorKind, Str("R0"), NodeRef(0), NodeRef(1), 1000.0) == Ok(r);
  }

  lemma SourceAndResistorSimple(name: string, v: Variant)
    ensures SimpleConnections(SourceAndResistor(name, v))
  {
    var c := SourceAndResistor(name, v);
    assert HandlesBelow(c.nodes[0].negCons, 2) && HandlesBelow(c.nodes[1].posCons, 2);
  }

  /** The circuit laws of the two-component circuit, one equation each:
      the ground reference, the current balance at `N1` (both components
      leave `N0` and enter `N1`), and the two branch equations. */
  ghost predicate SourceAndResistorEquations(k0: Coeffs, k1: Coeffs, y: seq<real>, reading: GroundReading)
    requires |y| == 4
  {
    && (if reading == Diagonal then y[0] == 0.0 else y[0] + y[1] + y[2] + y[3] == 0.0)
    && y[2] + y[3] == 0.0
    && Lhs(k0, y[1], y[2]) == k0.c
    && Lhs(k1, y[1], y[3]) == k1.c
  }

  lemma TotalOfFour(y: seq<real>)
    requires |y| == 4
    ensures Total(y) == y[0] + y[1] + y[2] + y[3]
  {
    assert y[1..][1..] == y[2..] && y[2..][1..] == y[3..] && y[3..][1..] == [];
    assert Total(y[3..]) == y[3];
    assert Total(y[2..]) == y[2] + y[3];
    assert Total(y[1..]) == y[1] + y[2] + y[3];
  }

  lemma SourceAndResistorLaws(name: string, v: Variant, k0: Coeffs, k1: Coeffs, y: seq<real>, reading: GroundReading)
    requires |y| == 4
    ensures WellFormed(SourceAndResistor(name, v))
    ensures CircuitLaws(SourceAndResistor(name, v), [k0, k1], y, reading) <==>
      SourceAndResistorEquations(k0, k1, y, reading)
  {
    var c := SourceAndResistor(name, v);
    SourceAndResistorSimple(name, v);
    assert SumAt(y, [0, 1], 2) == y[2] + y[3] by {
      assert [0, 1][1..] == [1] && [1][1..] == [];
    }
    TotalOfFour(y);
    assert Potential(c, y, 1) - Potential(c, y, 0) == y[1];
    assert NodeLaw(c, y, reading, 0) <==>
      if reading == Diagonal then y[0] == 0.0 else y[0] + y[1] + y[2] + y[3] == 0.0;
    assert NodeLaw(c, y, reading, 1) <==> y[2] + y[3] == 0.0;
    assert BranchLaw(c, [k0, k1], y, 0) <==> Lhs(k0, y[1], y[2]) == k0.c;
    assert BranchLaw(c, [k0, k1], y, 1) <==> Lhs(k1, y[1], y[3]) == k1.c;
  }

  lemma SourceAndResistorResults(name: string, v: Variant, x: seq<real>)
    requires |x| == 4
    ensures Results(SourceAndResistor(name, v), x) == map["N0" := x[0], "N1" := x[1], name := x[2], "R0" := x[3]]
  {
    var names := ["N0", "N1", name, "R0"];
    assert Names(SourceAndResistor(name, v)) == names;
    assert Collect(names[..1], x[..1]) == map["N0" := x[0]] by {
      assert names[..1][..0] == [] && x[..1][..0] == [];
    }
    assert Collect(names[..2], x[..2]) == map["N0" := x[0], "N1" := x[1]] by {
      assert names[..2][..1] == names[..1] && x[..2][..1] == x[..1];
    }
    assert Collect(names[..3], x[..3]) == map["N0" := x[0], "N1" := x[1], name := x[2]] by {
      assert names[..3][..2] == names[..2] && x[..3][..2] == x[..2];
    }
    assert names[..4][..3] == names[..3] && x[..4][..3] == x[..3];
  }

  /** The resistor's coefficients at any frequency. */
  const KiloOhm := Coeffs(1.0, -1000.0, 0.0)

  /** When the four equations of the two-component circuit have exactly
      one solution `x`, the sweep reports it by name. */
  lemma SourceAndResistorSweep(name: string, v: Variant, k0: Coeffs, x: seq<real>, reading: GroundReading,
                               solve: System -> Option<seq<real>>)
    requires ExactSolver(solve) && name != "N0" && name != "N1" && name != "R0"
    requires GetParams(v, Khz) == Ok(k0) && |x| == 4
    requires forall y: seq<real> | |y| == 4 :: SourceAndResistorEquations(k0, KiloOhm, y, reading) <==> y == x
    ensures WellFormed(SourceAndResistor(name, v))
    ensures AcSweep(SourceAndResistor(name, v), Khz, reading, solve) ==
      Ok(map["N0" := x[0], "N1" := x[1], name := x[2], "R0" := x[3]])
  {
    var c := SourceAndResistor(name, v);
    SourceAndResistorSimple(name, v);
    CoeffsOfSucceeds(c.comps, Khz, [k0, KiloOhm]);
    forall y: seq<real> | |y| == 4
      ensures CircuitLaws(c, [k0, KiloOhm], y, reading) <==> y == x
    {
      SourceAndResistorLaws(name, v, k0, KiloOhm, y, reading);
    }
    assert UniqueLaws(c, [k0, KiloOhm], x, reading);
    UniqueLawsAreFound(c, Khz, reading, solve, x);
    SourceAndResistorResults(name, v, x);
  }

  /** The equations of `test_resistor_circuit` (a 5 V source and 1 kΩ):
      5 V across the resistor, 5 mA through it, and the source's current
      is the resistor's returned; `N0` is 0 V as intended and −5 V when all
      unknowns must sum to 0. */
  lemma ResistorCircuitEquations(reading: GroundReading, y: seq<real>)
    requires |y| == 4
    ensures SourceAndResistorEquations(Coeffs(1.0, 0.0, 5.0), KiloOhm, y, reading) <==>
      y == [if reading == Diagonal then 0.0 else -5.0, 5.0, -0.005, 0.005]
  {
    var k0 := Coeffs(1.0, 0.0, 5.0);
    assert Lhs(k0, y[1], y[2]) == y[1] by {
      UnitScale(y[1]);
    }
    assert Lhs(KiloOhm, y[1], y[3]) == y[1] - 1000.0 * y[3] by {
      UnitScale(y[1]);
    }
    if SourceAndResistorEquations(k0, KiloOhm, y, reading) {
      assert y[1] == 5.0;
      assert y[3] == 0.005;
      assert y == [y[0], y[1], y[2], y[3]];
    }
  }

  /** The resistor circuit's sweep under either reading of the ground row. */
  lemma ResistorCircuitSweep(reading: GroundReading, solve: System -> Option<seq<real>>)
    requires ExactSolver(solve)
    ensures WellFormed(SourceAndResistor("V0", VoltageSource(5.0)))
    ensures AcSweep(SourceAndResistor("V0", VoltageSource(5.0)), Khz, reading, solve) ==
      Ok(map["N0" := if reading == Diagonal then 0.0 else -5.0, "N1" := 5.0, "V0" := -0.005, "R0" := 0.005])
  {
    var x := [if reading == Diagonal then 0.0 else -5.0, 5.0, -0.005, 0.005];
    forall y: seq<real> | |y| == 4
      ensures SourceAndResistorEquations(Coeffs(1.0, 0.0, 5.0), KiloOhm, y, reading) <==> y == x
    {
      ResistorCircuitEquations(reading, y);
    }
    SourceAndResistorSweep("V0", VoltageSource(5.0), Coeffs(1.0, 0.0, 5.0), x, reading, solve);
  }

  /** `test_resistor_circuit`, with the ground node read as intended: the
      values the test expects. */
  lemma ResistorCircuitTest(solve: System -> Option<seq<real>>)
    requires ExactSolver(solve)
    ensures SweepsTo(SourceAndResistorCircuit(VoltageSourceKind, "V0", 5.0), Diagonal, solve,
                     map["N0" := 0.0, "N1" := 5.0, "V0" := -0.005, "R0" := 0.005])
  {
    SourceAndResistorBuilt(VoltageSourceKind, "V0", 5.0);
    ResistorCircuitSweep(Diagonal, solve);
  }

  /** `test_resistor_circuit` with the ground row as written (all ones):
      the sweep succeeds but reports −5 V at the ground node `N0`, where
      the test expects 0. */
  lemma ResistorCircuitAsWritten(solve: System -> Option<seq<real>>)
    requires ExactSolver(solve)
    ensures SweepsTo(SourceAndResistorCircuit(VoltageSourceKind, "V0", 5.0), WholeRow, solve,
                     map["N0" := -5.0, "N1" := 5.0, "V0" := -0.005, "R0" := 0.005])
  {
    SourceAndResistorBuilt(VoltageSourceKind, "V0", 5.0);
    ResistorCircuitSweep(WholeRow, solve);
  }

  /** The equations of `test_current_source` (−5 mA from the source and
      1 kΩ): the source fixes its own current, the balance at `N1` sends
      5 mA through the resistor, hence 5 V. */
  lemma CurrentSourceEquations(y: seq<real>)
    requires |y| == 4
    ensures SourceAndResistorEquations(Coeffs(0.0, 1.0, -0.005), KiloOhm, y, Diagonal) <==>
      y == [0.0, 5.0, -0.005, 0.005]
  {
    var k0 := Coeffs(0.0, 1.0, -0.005);
    assert Lhs(k0, y[1], y[2]) == y[2] by {
      UnitScale(y[2]);
    }
    assert Lhs(KiloOhm, y[1], y[3]) == y[1] - 1000.0 * y[3] by {
      UnitScale(y[1]);
    }
    if SourceAndResistorEquations(k0, KiloOhm, y, Diagonal) {
      assert y[2] == -0.005;
      assert y[3] == 0.005;
      assert y == [y[0], y[1], y[2], y[3]];
    }
  }

  /** `test_current_source`: the values the test expects. */
  lemma CurrentSourceTest(solve: System -> Option<seq<real>>)
    requires ExactSolver(solve)
    ensures SweepsTo(SourceAndResistorCircuit(CurrentSourceKind, "I0", -0.005), Diagonal, solve,
                     map["N0" := 0.0, "N1" := 5.0, "I0" := -0.005, "R0" := 0.005])
  {
    SourceAndResistorBuilt(CurrentSourceKind, "I0", -0.005);
    CurrentSourceSweep(solve);
  }

  lemma CurrentSourceSweep(solve: System -> Option<seq<real>>)
    requires ExactSolver(solve)
    ensures WellFormed(SourceAndResistor("I0", CurrentSource(-0.005)))
    ensures AcSweep(SourceAndResistor("I0", CurrentSource(-0.005)), Khz, Diagonal, solve) ==
      Ok(map["N0" := 0.0, "N1" := 5.0, "I0" := -0.005, "R0" := 0.005])
  {
    var k0, x := Coeffs(0.0, 1.0, -0.005), [0.0, 5.0, -0.005, 0.005];
    assert GetParams(CurrentSource(-0.005), Khz) == Ok(k0);
    forall y: seq<real> | |y| == 4
      ensures SourceAndResistorEquations(k0, KiloOhm, y, Diagonal) <==> y == x
    {
      CurrentSourceEquations(y);
    }
    SourceAndResistorSweep("I0", CurrentSource(-0.005), k0, x, Diagonal, solve);
    assert x[0] == 0.0 && x[1] == 5.0 && x[2] == -0.005 && x[3] == 0.005;
  }

  /** `test_single_node`: one ground node and nothing else. */
  function SingleNodeCircuit(): Result<Circuit> {
    var n :- NewNode(Str("ground-node"), Bool(true));
    AddNode(Empty, NodeObj(n))
  }

  /** `test_single_node`: the ground node is at 0 V, under either reading
      of its row (with one unknown they coincide). */
  lemma SingleNodeTest(reading: GroundReading, solve: System -> Option<seq<real>>)
    requires ExactSolver(solve)
    ensures SweepsTo(SingleNodeCircuit(), reading, solve, map["ground-node" := 0.0])
  {
    var c := Circuit([Node("ground-node", true, [], [])], []);
    assert SingleNodeCircuit() == Ok(c);
    SingleNodeUnique(reading);
    CoeffsOfSucceeds(c.comps, Khz, []);
    UniqueLawsAreFound(c, Khz, reading, solve, [0.0]);
    SingleNodeResults();
  }

  lemma SingleNodeResults()
    ensures Results(Circuit([Node("ground-node", true, [], [])], []), [0.0]) == map["ground-node" := 0.0]
  {
    var c := Circuit([Node("ground-node", true, [], [])], []);
    var names := Names(c);
    assert |names| == 1 && names[0] == "ground-node";
    assert names[..0] == [] && [0.0][..0] == [];
  }

  /** The single ground node's law, under either reading, holds at 0 V
      and nowhere else. */
  lemma SingleNodeUnique(reading: GroundReading)
    ensures WellFormed(Circuit([Node("ground-node", true, [], [])], []))
    ensures UniqueLaws(Circuit([Node("ground-node", true, [], [])], []), [], [0.0], reading)
  {
    var c := Circuit([Node("ground-node", true, [], [])], []);
    assert SimpleConnections(c);
    forall y: seq<real> | |y| == 1
      ensures CircuitLaws(c, [], y, reading) <==> y == [0.0]
    {
      assert Total(y) == y[0] by {
        assert y[1..] == [];
      }
      assert CircuitLaws(c, [], y, reading) <==> NodeLaw(c, y, reading, 0);
      if y[0] == 0.0 {
        assert y == [0.0];
      }
    }
  }

  /** The resistor circuit built with the constructor's registration as
      written: each component is listed twice at `N0` and not at all at
      `N1`. */
  function SourceAndResistorCircuitAsWritten(): Result<Circuit> {
    var c :- TwoNodeCircuit();
    var c :- ConstructAsWritten(c, VoltageSourceKind, Str("V0"), NodeRef(0), NodeRef(1), 5.0);
    ConstructAsWritten(c, ResistorKind, Str("R0"), NodeRef(0), NodeRef(1), 1000.0)
  }

  function SourceAndResistorAsWritten(): Circuit {
    Circuit([Node("N0", true, [0, 1], [0, 1]), Node("N1", false, [], [])],
            [Comp("V0", 0, 1, VoltageSource(5.0)), Comp("R0", 0, 1, Resistor(-1000.0))])
  }

  lemma SourceAndResistorAsWrittenBuilt()
    ensures SourceAndResistorCircuitAsWritten() == Ok(SourceAndResistorAsWritten())
  {
    var two := TwoNodes;
    TwoNodesBuilt();
    var one := NewComponentAsWritten(two, Str("V0"), NodeRef(0), NodeRef(1), VoltageSource(5.0)).value;
    assert one.nodes[0] == Node("N0", true, [0], [0]);
    assert one.nodes == [one.nodes[0], two.nodes[1]];
    assert one.comps == [Comp("V0", 0, 1, VoltageSource(5.0))];
    var r := NewComponentAsWritten(one, Str("R0"), NodeRef(0), NodeRef(1), Resistor(-1000.0)).value;
    assert r.nodes[0] == Node("N0", true, [0, 1], [0, 1]);
    assert r.nodes == [r.nodes[0], two.nodes[1]];
    assert r.comps == [Comp("V0", 0, 1, VoltageSource(5.0)), Comp("R0", 0, 1, Resistor(-1000.0))];
    assert ConstructAsWritten(two, VoltageSourceKind, Str("V0"), NodeRef(0), NodeRef(1), 5.0) == Ok(one);
    assert ConstructAsWritten(one, ResistorKind, Str("R0"), NodeRef(0), NodeRef(1), 1000.0) == Ok(r);
  }

  /** With the registration as written, `N1`'s current balance is the empty
      equation `0 = 0`, so the source's current appears in no equation
      except, under the whole-row reading, the ground row's sum. */
  lemma AsWrittenLaws(y: seq<real>, reading: GroundReading)
    requires |y| == 4
    ensures SimpleConnections(SourceAndResistorAsWritten())
    ensures CircuitLaws(SourceAndResistorAsWritten(), [Coeffs(1.0, 0.0, 5.0), KiloOhm], y, reading) <==>
      && (if reading == Diagonal then y[0] == 0.0 else y[0] + y[1] + y[2] + y[3] == 0.0)
      && y[1] == 5.0 && y[3] == 0.005
  {
    var c, k0 := SourceAndResistorAsWritten(), Coeffs(1.0, 0.0, 5.0);
    assert SimpleConnections(c) by {
      assert HandlesBelow(c.nodes[0].negCons, 2) && HandlesBelow(c.nodes[0].posCons, 2);
    }
    TotalOfFour(y);
    assert Potential(c, y, 1) - Potential(c, y, 0) == y[1];
    assert Lhs(k0, y[1], y[2]) == y[1] by {
      UnitScale(y[1]);
    }
    assert Lhs(KiloOhm, y[1], y[3]) == y[1] - 1000.0 * y[3] by {
      UnitScale(y[1]);
    }
    assert NodeLaw(c, y, reading, 0) <==>
      if reading == Diagonal then y[0] == 0.0 else y[0] + y[1] + y[2] + y[3] == 0.0;
    assert NodeLaw(c, y, reading, 1);
    assert BranchLaw(c, [k0, KiloOhm], y, 0) <==> y[1] == 5.0;
    assert BranchLaw(c, [k0, KiloOhm], y, 1) <==> y[1] - 1000.0 * y[3] == 0.0;
  }

  /** `test_resistor_circuit` with the registration as written: the
      matrix is singular under either reading of the ground row and the
      sweep raises `LinAlgError`, where the test expects the values it gets
      with the intended registration. */
  lemma RegistrationAsWritten(reading: GroundReading, solve: System -> Option<seq<real>>)
    requires ExactSolver(solve)
    ensures SourceAndResistorCircuitAsWritten().Ok? && WellFormed(SourceAndResistorCircuitAsWritten().value)
    ensures AcSweep(SourceAndResistorCircuitAsWritten().value, Khz, reading, solve) == Err(LinAlgError)
  {
    SourceAndResistorAsWrittenBuilt();
    AsWrittenSingular(reading, solve);
  }

  /** The as-written circuit's sweep fails for want of a unique solution. */
  lemma AsWrittenSingular(reading: GroundReading, solve: System -> Option<seq<real>>)
    requires ExactSolver(solve)
    ensures WellFormed(SourceAndResistorAsWritten())
    ensures AcSweep(SourceAndResistorAsWritten(), Khz, reading, solve) == Err(LinAlgError)
  {
    var c := SourceAndResistorAsWritten();
    AsWrittenLaws([0.0, 5.0, 0.0, 0.005], reading);
    CoeffsOfSucceeds(c.comps, Khz, [Coeffs(1.0, 0.0, 5.0), KiloOhm]);
    if AcSweep(c, Khz, reading, solve).Ok? {
      var x := SweepSolution(c, Khz, reading, solve);
      AsWrittenNotUnique(x, reading);
      assert false;
    }
  }

  /** Under the registration as written, a component whose negative
      terminal is not ground sits in both of that node's lists, so the
      resulting circuit never meets the simplicity the meaning theorems
      assume. */
  lemma AsWrittenNotSimple(c: Circuit, kind: Kind, name: Value, nNeg: Value, nPos: Value, parameter: real)
    requires TerminalsInCircuit(c, nNeg, nPos)
    requires ConstructAsWritten(c, kind, name, nNeg, nPos, parameter).Ok?
    requires !c.nodes[nNeg.node].ground
    ensures !SimpleConnections(ConstructAsWritten(c, kind, name, nNeg, nPos, parameter).value)
  {
    var r, i := ConstructAsWritten(c, kind, name, nNeg, nPos, parameter).value, nNeg.node;
    var negs, poss := r.nodes[i].negCons, r.nodes[i].posCons;
    assert negs[|negs| - 1] == |c.comps| == poss[|poss| - 1];
    assert !Disjoint(negs, poss);
  }

  /** No state is the only one the as-written laws allow: raising the
      source's current keeps every law, once the ground value absorbs the
      change under the whole-row reading. */
  lemma AsWrittenNotUnique(x: seq<real>, reading: GroundReading)
    requires |x| == 4
    ensures WellFormed(SourceAndResistorAsWritten())
    ensures !UniqueLaws(SourceAndResistorAsWritten(), [Coeffs(1.0, 0.0, 5.0), KiloOhm], x, reading)
  {
    var x' := if reading == Diagonal then x[2 := x[2] + 1.0] else x[0 := x[0] - 1.0][2 := x[2] + 1.0];
    AsWrittenLaws(x, reading);
    AsWrittenLaws(x', reading);
    assert x' != x by {
      assert x'[2] != x[2];
    }
  }
}

=== FILE: laws.dfy ===
/** What a solution of the assembled system means for the circuit: the
    system holds exactly when every node's equation (its current balance,
    or the ground reference) and every component's branch equation hold. */
module Laws {
  import opened Python
  import opened Nodes
  import opened Components
  import opened Circuits
  import opened Linear
  import opened Assembly

  /** `x` solves the square system: `matrix · x = rhs`. */
  ghost predicate Solves(sys: System, x: seq<real>) {
    && |sys.matrix| == |x| && |sys.rhs| == |x|
    && forall k | 0 <= k < |x| :: |sys.matrix[k]| == |x| && Dot(sys.matrix[k], x) == sys.rhs[k]
  }

  /** A node's voltage as the branch equations see it: the optimised
      branches drop a grounded terminal's column, i.e. read it as 0. */
  function Potential(c: Circuit, x: seq<real>, i: nat): real
    requires i < |c.nodes| && |x| == Size(c)
  {
    if c.nodes[i].ground then 0.0 else x[i]
  }

  /** No ungrounded node lists a component twice, and no component has both
      terminals on one ungrounded node. */
  ghost predicate SimpleConnections(c: Circuit) {
    && WellFormed(c)
    && (forall i | 0 <= i < |c.nodes| && !c.nodes[i].ground ::
          && NoRepeats(c.nodes[i].negCons) && NoRepeats(c.nodes[i].posCons)
          && Disjoint(c.nodes[i].negCons, c.nodes[i].posCons))
    && (forall j | 0 <= j < |c.comps| :: c.comps[j].neg == c.comps[j].pos ==> c.nodes[c.comps[j].neg].ground)
  }

  /** The equation of node `i`: for a ground node, the reference (its own
      voltage is 0 as intended; all unknowns sum to 0 as written); for any
      other node, the currents of negatively attached components sum to
      those of positively attached ones (Kirchhoff's current law). */
  ghost predicate NodeLaw(c: Circuit, x: seq<real>, reading: GroundReading, i: nat)
    requires WellFormed(c) && |x| == Size(c) && i < |c.nodes|
  {
    if c.nodes[i].ground then
      if reading == Diagonal then x[i] == 0.0 else Total(x) == 0.0
    else
      SumAt(x, c.nodes[i].negCons, |c.nodes|) == SumAt(x, c.nodes[i].posCons, |c.nodes|)
  }

  /** The branch equation of component `j`: no current when both terminals
      are grounded, `A·V + B·I = C` otherwise. */
  ghost predicate BranchLaw(c: Circuit, ks: seq<Coeffs>, x: seq<real>, j: nat)
    requires WellFormed(c) && |x| == Size(c) && |ks| == |c.comps| && j < |c.comps|
  {
    var cm := c.comps[j];
    if BothGrounded(c, j) then x[|c.nodes| + j] == 0.0
    else Satisfies(ks[j], Potential(c, x, cm.pos) - Potential(c, x, cm.neg), x[|c.nodes| + j])
  }

  ghost predicate CircuitLaws(c: Circuit, ks: seq<Coeffs>, x: seq<real>, reading: GroundReading)
    requires WellFormed(c) && |x| == Size(c) && |ks| == |c.comps|
  {
    && (forall i | 0 <= i < |c.nodes| :: NodeLaw(c, x, reading, i))
    && (forall j | 0 <= j < |c.comps| :: BranchLaw(c, ks, x, j))
  }

  /** A node's row times `x`: the sum of all unknowns (ground, as written),
      the node's own voltage (ground, as intended), or the negatively
      attached currents minus the positively attached ones. */
  lemma NodeRowDot(c: Circuit, i: nat, reading: GroundReading, x: seq<real>)
    requires SimpleConnections(c) && i < |c.nodes| && |x| == Size(c)
    ensures var e := NodeEquation(c, i, reading);
      Dot(e.row, x) == e.rhs <==> NodeLaw(c, x, reading, i)
  {
    var n, offset := c.nodes[i], |c.nodes|;
    if n.ground && reading == WholeRow {
      assert NodeEquation(c, i, reading).row == Ones(|x|);
      DotOnes(x);
    } else if n.ground {
      assert NodeEquation(c, i, reading).row == Zeros(Size(c))[i := 1.0];
      DotUnit(x, Size(c), i);
    } else {
      assert HandlesBelow(n.negCons, |c.comps|) && HandlesBelow(n.posCons, |c.comps|);
      KclRow(c, i, reading);
      DotBalance(x, Size(c), n.negCons, n.posCons, offset);
    }
  }

  /** The row of an ungrounded node, as the writes that build it. */
  lemma KclRow(c: Circuit, i: nat, reading: GroundReading)
    requires WellFormed(c) && i < |c.nodes| && !c.nodes[i].ground
    ensures forall p | 0 <= p < |c.nodes[i].negCons| :: |c.nodes| + c.nodes[i].negCons[p] < Size(c)
    ensures forall p | 0 <= p < |c.nodes[i].posCons| :: |c.nodes| + c.nodes[i].posCons[p] < Size(c)
    ensures NodeEquation(c, i, reading).row ==
      WriteAll(WriteAll(Zeros(Size(c)), c.nodes[i].negCons, |c.nodes|, 1.0), c.nodes[i].posCons, |c.nodes|, -1.0)
  {
    assert HandlesBelow(c.nodes[i].negCons, |c.comps|) && HandlesBelow(c.nodes[i].posCons, |c.comps|);
  }

  /** A component's row times `x` is `A·(V+ − V−) + B·I` with grounded
      terminals read as 0 (or `I` alone when both are grounded). */
  lemma CompRowDot(c: Circuit, j: nat, k: Coeffs, x: seq<real>)
    requires SimpleConnections(c) && j < |c.comps| && |x| == Size(c)
    ensures var e, cm := CompEquation(c, j, k), c.comps[j];
      Dot(e.row, x) ==
        if BothGrounded(c, j) then x[|c.nodes| + j]
        else Lhs(k, Potential(c, x, cm.pos) - Potential(c, x, cm.neg), x[|c.nodes| + j])
  {
    var cm := c.comps[j];
    if BothGrounded(c, j) {
      var z, self := Zeros(|x|), |c.nodes| + j;
      assert CompEquation(c, j, k).row == z[self := 1.0];
      DotZeros(x);
      DotUpdate(z, x, self, 1.0);
      assert z[self] == 0.0;
    } else {
      OneBranchRowDot(c, j, k, x);
    }
  }

  lemma OneBranchRowDot(c: Circuit, j: nat, k: Coeffs, x: seq<real>)
    requires SimpleConnections(c) && j < |c.comps| && |x| == Size(c) && !BothGrounded(c, j)
    ensures var cm := c.comps[j];
      Dot(CompEquation(c, j, k).row, x) ==
        Lhs(k, Potential(c, x, cm.pos) - Potential(c, x, cm.neg), x[|c.nodes| + j])
  {
    var cm := c.comps[j];
    if c.nodes[cm.neg].ground {
      NegGroundedBranch(c, j, k, x);
    } else if c.nodes[cm.pos].ground {
      PosGroundedBranch(c, j, k, x);
    } else {
      assert cm.neg != cm.pos;
      FloatingBranch(c, j, k, x);
    }
  }

  lemma NegGroundedBranch(c: Circuit, j: nat, k: Coeffs, x: seq<real>)
    requires WellFormed(c) && j < |c.comps| && |x| == Size(c)
    requires c.nodes[c.comps[j].neg].ground && !c.nodes[c.comps[j].pos].ground
    ensures var cm := c.comps[j];
      Dot(CompEquation(c, j, k).row, x) ==
        Lhs(k, Potential(c, x, cm.pos) - Potential(c, x, cm.neg), x[|c.nodes| + j])
  {
    var cm, self := c.comps[j], |c.nodes| + j;
    NegGroundedRow(c, j, k);
    RowWithPos(Zeros(Size(c))[cm.pos := k.a][self := k.b], x, Size(c), cm.pos, self, k);
    assert Potential(c, x, cm.pos) - Potential(c, x, cm.neg) == x[cm.pos];
  }

  lemma PosGroundedBranch(c: Circuit, j: nat, k: Coeffs, x: seq<real>)
    requires WellFormed(c) && j < |c.comps| && |x| == Size(c)
    requires !c.nodes[c.comps[j].neg].ground && c.nodes[c.comps[j].pos].ground
    ensures var cm := c.comps[j];
      Dot(CompEquation(c, j, k).row, x) ==
        Lhs(k, Potential(c, x, cm.pos) - Potential(c, x, cm.neg), x[|c.nodes| + j])
  {
    var cm, self := c.comps[j], |c.nodes| + j;
    PosGroundedRow(c, j, k);
    RowWithNeg(Zeros(Size(c))[cm.neg := -k.a][self := k.b], x, Size(c), cm.neg, self, k);
    assert Potential(c, x, cm.pos) - Potential(c, x, cm.neg) == -x[cm.neg];
  }

  lemma FloatingBranch(c: Circuit, j: nat, k: Coeffs, x: seq<real>)
    requires WellFormed(c) && j < |c.comps| && |x| == Size(c) && c.comps[j].neg != c.comps[j].pos
    requires !c.nodes[c.comps[j].neg].ground && !c.nodes[c.comps[j].pos].ground
    ensures var cm := c.comps[j];
      Dot(CompEquation(c, j, k).row, x) ==
        Lhs(k, Potential(c, x, cm.pos) - Potential(c, x, cm.neg), x[|c.nodes| + j])
  {
    var cm, self := c.comps[j], |c.nodes| + j;
    FloatingRow(c, j, k);
    RowWithBoth(Zeros(Size(c))[cm.pos := k.a][cm.neg := -k.a][self := k.b], x, Size(c), cm.pos, cm.neg, self, k);
    assert Potential(c, x, cm.pos) - Potential(c, x, cm.neg) == x[cm.pos] - x[cm.neg];
  }

  /** The row of a component that is not grounded at both ends, as the
      updates of a zero row that build it. */
  lemma NegGroundedRow(c: Circuit, j: nat, k: Coeffs)
    requires WellFormed(c) && j < |c.comps|
    requires c.nodes[c.comps[j].neg].ground && !c.nodes[c.comps[j].pos].ground
    ensures CompEquation(c, j, k).row == Zeros(Size(c))[c.comps[j].pos := k.a][|c.nodes| + j := k.b]
  {
  }

  lemma PosGroundedRow(c: Circuit, j: nat, k: Coeffs)
    requires WellFormed(c) && j < |c.comps|
    requires !c.nodes[c.comps[j].neg].ground && c.nodes[c.comps[j].pos].ground
    ensures CompEquation(c, j, k).row == Zeros(Size(c))[c.comps[j].neg := -k.a][|c.nodes| + j := k.b]
  {
  }

  lemma FloatingRow(c: Circuit, j: nat, k: Coeffs)
    requires WellFormed(c) && j < |c.comps|
    requires !c.nodes[c.comps[j].neg].ground && !c.nodes[c.comps[j].pos].ground
    ensures CompEquation(c, j, k).row ==
      Zeros(Size(c))[c.comps[j].pos := k.a][c.comps[j].neg := -k.a][|c.nodes| + j := k.b]
  {
  }

  /** A branch row times `x`, read as the left-hand side `A·V + B·I` of the
      branch equation: `A` at `p` (`V = x[p]`), `−A` at `q` (`V = −x[q]`),
      or both (`V = x[p] − x[q]`), and `B` at `r` (`I = x[r]`). */
  lemma RowWithPos(row: seq<real>, x: seq<real>, n: nat, p: nat, r: nat, k: Coeffs)
    requires |x| == n && p < n && r < n && p != r
    requires row == Zeros(n)[p := k.a][r := k.b]
    ensures Dot(row, x) == Lhs(k, x[p], x[r])
  {
    RowDotTwo(row, x, n, p, k.a, r, k.b);
  }

  lemma RowWithNeg(row: seq<real>, x: seq<real>, n: nat, q: nat, r: nat, k: Coeffs)
    requires |x| == n && q < n && r < n && q != r
    requires row == Zeros(n)[q := -k.a][r := k.b]
    ensures Dot(row, x) == Lhs(k, -x[q], x[r])
  {
    RowDotTwo(row, x, n, q, -k.a, r, k.b);
    LhsOfDifference(k, 0.0, x[q], x[r]);
    assert -k.a * x[q] == k.a * -x[q];
  }

  lemma RowWithBoth(row: seq<real>, x: seq<real>, n: nat, p: nat, q: nat, r: nat, k: Coeffs)
    requires |x| == n && p < n && q < n && r < n && p != q && q != r && p != r
    requires row == Zeros(n)[p := k.a][q := -k.a][r := k.b]
    ensures Dot(row, x) == Lhs(k, x[p] - x[q], x[r])
  {
    RowDotThree(row, x, n, p, k.a, q, -k.a, r, k.b);
    LhsOfDifference(k, x[p], x[q], x[r]);
  }

  lemma LhsOfDifference(k: Coeffs, vp: real, vn: real, current: real)
    ensures k.a * vp + -k.a * vn + k.b * current == Lhs(k, vp - vn, current)
  {
    assert -k.a * vn == -(k.a * vn);
    assert k.a * (vp - vn) == k.a * vp - k.a * vn;
  }

  /** The assembled system says exactly the circuit laws: a vector solves
      it if and only if every node equation and every branch equation
      holds, with the coefficients `get_params` returned. */
  lemma SystemIsCircuitLaws(c: Circuit, state: StateDict, reading: GroundReading, x: seq<real>)
    requires SimpleConnections(c) && Assemble(c, state, reading).Ok? && |x| == Size(c)
    ensures CoeffsOf(c.comps, state).Ok?
    ensures Solves(Assemble(c, state, reading).value, x) <==>
      CircuitLaws(c, CoeffsOf(c.comps, state).value, x, reading)
  {
    SolvesEquationwise(c, state, reading, x);
    EquationsAreLaws(c, CoeffsOf(c.comps, state).value, reading, x);
  }

  /** Every equation, taken by its index, holds at `x`. */
  ghost predicate AllEquationsHold(c: Circuit, ks: seq<Coeffs>, reading: GroundReading, x: seq<real>)
    requires WellFormed(c) && |ks| == |c.comps| && |x| == Size(c)
  {
    forall k | 0 <= k < Size(c) :: Dot(EquationAt(c, ks, reading, k).row, x) == EquationAt(c, ks, reading, k).rhs
  }

  lemma SolvesEquationwise(c: Circuit, state: StateDict, reading: GroundReading, x: seq<real>)
    requires WellFormed(c) && Assemble(c, state, reading).Ok? && |x| == Size(c)
    ensures CoeffsOf(c.comps, state).Ok?
    ensures Solves(Assemble(c, state, reading).value, x) <==>
      AllEquationsHold(c, CoeffsOf(c.comps, state).value, reading, x)
  {
    AssembledRows(c, state, reading);
  }

  lemma EquationsAreLaws(c: Circuit, ks: seq<Coeffs>, reading: GroundReading, x: seq<real>)
    requires SimpleConnections(c) && |ks| == |c.comps| && |x| == Size(c)
    ensures AllEquationsHold(c, ks, reading, x) <==> CircuitLaws(c, ks, x, reading)
  {
    var n := |c.nodes|;
    forall k | 0 <= k < Size(c)
      ensures Dot(EquationAt(c, ks, reading, k).row, x) == EquationAt(c, ks, reading, k).rhs <==>
        RowLaw(c, ks, x, reading, k)
    {
      RowMeaning(c, ks, reading, x, k);
    }
    if AllEquationsHold(c, ks, reading, x) {
      forall i | 0 <= i < n
        ensures NodeLaw(c, x, reading, i)
      {
        assert RowLaw(c, ks, x, reading, i);
      }
      forall j | 0 <= j < |c.comps|
        ensures BranchLaw(c, ks, x, j)
      {
        assert RowLaw(c, ks, x, reading, n + j);
      }
    }
    if CircuitLaws(c, ks, x, reading) {
      forall k | 0 <= k < Size(c)
        ensures RowLaw(c, ks, x, reading, k)
      {
        if k < n {
          assert NodeLaw(c, x, reading, k);
        } else {
          assert BranchLaw(c, ks, x, k - n);
        }
      }
    }
  }

  /** The law behind the equation at index `k`. */
  ghost predicate RowLaw(c: Circuit, ks: seq<Coeffs>, x: seq<real>, reading: GroundReading, k: nat)
    requires WellFormed(c) && |x| == Size(c) && |ks| == |c.comps| && k < Size(c)
  {
    if k < |c.nodes| then NodeLaw(c, x, reading, k) else BranchLaw(c, ks, x, k - |c.nodes|)
  }

  lemma RowMeaning(c: Circuit, ks: seq<Coeffs>, reading: GroundReading, x: seq<real>, k: nat)
    requires SimpleConnections(c) && |ks| == |c.comps| && |x| == Size(c) && k < Size(c)
    ensures var e := EquationAt(c, ks, reading, k);
      Dot(e.row, x) == e.rhs <==> RowLaw(c, ks, x, reading, k)
  {
    if k < |c.nodes| {
      NodeRowDot(c, k, reading, x);
    } else {
      var j := k - |c.nodes|;
      CompRowDot(c, j, ks[j], x);
      CompEquationEntries(c, j, ks[j]);
    }
  }

  /** A circuit whose connection lists match its components, with no
      self-loop on an ungrounded node, has simple connections. */
  lemma ConsistentIsSimple(c: Circuit)
    requires Consistent(c)
    requires forall j | 0 <= j < |c.comps| :: c.comps[j].neg == c.comps[j].pos ==> c.nodes[c.comps[j].neg].ground
    ensures SimpleConnections(c)
  {
    forall i | 0 <= i < |c.nodes| && !c.nodes[i].ground
      ensures Disjoint(c.nodes[i].negCons, c.nodes[i].posCons)
    {
      forall p, q | 0 <= p < |c.nodes[i].negCons| && 0 <= q < |c.nodes[i].posCons|
        ensures c.nodes[i].negCons[p] != c.nodes[i].posCons[q]
      {
        var h := c.nodes[i].negCons[p];
        assert HandlesBelow(c.nodes[i].negCons, |c.comps|);
        assert h in c.nodes[i].negCons;
        assert c.comps[h].neg == i;
      }
    }
  }

  /** With the intended ground equation every ground node sits at 0 V, so
      each branch equation is the general one, `A·(V+ − V−) + B·I = C` on
      the unknowns themselves, and by the variant's coefficients it is the
      component's physical law. */
  lemma SolutionsObeyComponentLaws(c: Circuit, state: StateDict, x: seq<real>, j: nat)
    requires WellFormed(c) && |x| == Size(c) && j < |c.comps|
    requires CoeffsOf(c.comps, state).Ok?
    requires CircuitLaws(c, CoeffsOf(c.comps, state).value, x, Diagonal)
    requires !BothGrounded(c, j)
    ensures var cm := c.comps[j];
      Law(cm.variant, FrequencyOf(state), x[cm.pos] - x[cm.neg], x[|c.nodes| + j])
  {
    var cm, ks := c.comps[j], CoeffsOf(c.comps, state).value;
    assert NodeLaw(c, x, Diagonal, cm.pos) && NodeLaw(c, x, Diagonal, cm.neg);
    assert BranchLaw(c, ks, x, j);
    assert Potential(c, x, cm.pos) - Potential(c, x, cm.neg) == x[cm.pos] - x[cm.neg];
    GoverningEquation(cm.variant, state, x[cm.pos] - x[cm.neg], x[|c.nodes| + j]);
  }
}

=== FILE: linear.dfy ===
/** Rows, dot products and column writes: the small amount of linear
    algebra the assembly and its proofs need. */
module Linear {

  function Zeros(n: nat): (r: seq<real>)
    ensures |r| == n && forall k | 0 <= k < n :: r[k] == 0.0
  {
    seq(n, _ => 0.0)
  }

  function Ones(n: nat): (r: seq<real>)
    ensures |r| == n && forall k | 0 <= k < n :: r[k] == 1.0
  {
    seq(n, _ => 1.0)
  }

  /** Column `offset + h` is hit by a write for some handle `h` of `hs`. */
  predicate Hits(hs: seq<nat>, offset: nat, k: int) {
    exists p | 0 <= p < |hs| :: offset + hs[p] == k
  }

  /** `row[offset + h] = v` for each `h` of `hs`, in order. */
  function WriteAll(row: seq<real>, hs: seq<nat>, offset: nat, v: real): (r: seq<real>)
    requires forall p | 0 <= p < |hs| :: offset + hs[p] < |row|
    ensures |r| == |row|
    decreases |hs|
  {
    if |hs| == 0 then row
    else WriteAll(row[offset + hs[0] := v], hs[1..], offset, v)
  }

  /** After the writes, a column holds `v` exactly when some handle hits it,
      and its old value otherwise. */
  lemma {:induction false} WriteAllEntries(row: seq<real>, hs: seq<nat>, offset: nat, v: real)
    requires forall p | 0 <= p < |hs| :: offset + hs[p] < |row|
    ensures forall k | 0 <= k < |row| ::
      WriteAll(row, hs, offset, v)[k] == if Hits(hs, offset, k) then v else row[k]
    decreases |hs|
  {
    if |hs| > 0 {
      var tail := hs[1..];
      WriteAllEntries(row[offset + hs[0] := v], tail, offset, v);
      forall k | 0 <= k < |row|
        ensures Hits(hs, offset, k) <==> offset + hs[0] == k || Hits(tail, offset, k)
      {
        if Hits(hs, offset, k) && offset + hs[0] != k {
          var p :| 0 <= p < |hs| && offset + hs[p] == k;
          assert tail[p - 1] == hs[p];
        }
        if Hits(tail, offset, k) {
          var p :| 0 <= p < |tail| && offset + tail[p] == k;
          assert hs[p + 1] == tail[p];
        }
      }
    }
  }

  function Dot(row: seq<real>, x: seq<real>): real
    requires |row| == |x|
    decreases |row|
  {
    if |row| == 0 then 0.0 else row[0] * x[0] + Dot(row[1..], x[1..])
  }

  /** Sum of all entries. */
  function Total(x: seq<real>): real
    decreases |x|
  {
    if |x| == 0 then 0.0 else x[0] + Total(x[1..])
  }

  /** Sum of `x[offset + h]` over the handles `h` of `hs`. */
  function SumAt(x: seq<real>, hs: seq<nat>, offset: nat): real
    requires forall p | 0 <= p < |hs| :: offset + hs[p] < |x|
    decreases |hs|
  {
    if |hs| == 0 then 0.0 else x[offset + hs[0]] + SumAt(x, hs[1..], offset)
  }

  lemma {:induction false} DotZeros(x: seq<real>)
    ensures Dot(Zeros(|x|), x) == 0.0
    decreases |x|
  {
    if |x| > 0 {
      assert Zeros(|x|)[1..] == Zeros(|x| - 1);
      DotZeros(x[1..]);
    }
  }

  lemma {:induction false} DotOnes(x: seq<real>)
    ensures Dot(Ones(|x|), x) == Total(x)
    decreases |x|
  {
    if |x| > 0 {
      assert Ones(|x|)[1..] == Ones(|x| - 1);
      DotOnes(x[1..]);
    }
  }

  /** Changing one entry of a row changes its dot product by the change
      times the matching entry of `x`. */
  lemma {:induction false} DotUpdate(row: seq<real>, x: seq<real>, k: nat, v: real)
    requires |row| == |x| && k < |row|
    ensures Dot(row[k := v], x) == Dot(row, x) + (v - row[k]) * x[k]
    decreases |row|
  {
    if k == 0 {
      assert row[k := v][1..] == row[1..];
    } else {
      assert row[k := v][1..] == row[1..][k - 1 := v];
      DotUpdate(row[1..], x[1..], k - 1, v);
    }
  }

  predicate NoRepeats(hs: seq<nat>) {
    forall p, q | 0 <= p < q < |hs| :: hs[p] != hs[q]
  }

  /** Writing `v` into distinct columns that held zero adds `v` times the
      sum of the matching entries of `x`. */
  lemma {:induction false} DotWriteAll(row: seq<real>, x: seq<real>, hs: seq<nat>, offset: nat, v: real)
    requires |row| == |x|
    requires forall p | 0 <= p < |hs| :: offset + hs[p] < |row|
    requires NoRepeats(hs)
    requires forall p | 0 <= p < |hs| :: row[offset + hs[p]] == 0.0
    ensures Dot(WriteAll(row, hs, offset, v), x) == Dot(row, x) + v * SumAt(x, hs, offset)
    decreases |hs|
  {
    if |hs| == 0 {
      assert WriteAll(row, hs, offset, v) == row;
      assert SumAt(x, hs, offset) == 0.0;
    } else {
      var k := offset + hs[0];
      var row' := row[k := v];
      var tail := hs[1..];
      assert WriteAll(row, hs, offset, v) == WriteAll(row', tail, offset, v);
      assert SumAt(x, hs, offset) == x[k] + SumAt(x, tail, offset);
      assert row[k] == 0.0;
      DotSet(row, x, k, v);
      forall p | 0 <= p < |tail|
        ensures offset + tail[p] < |row'| && row'[offset + tail[p]] == 0.0
      {
        assert tail[p] == hs[p + 1] != hs[0];
      }
      assert NoRepeats(tail) by {
        forall p, q | 0 <= p < q < |tail| ensures tail[p] != tail[q] {
          assert tail[p] == hs[p + 1] && tail[q] == hs[q + 1];
        }
      }
      DotWriteAll(row', x, tail, offset, v);
      Distribute(v, x[k], SumAt(x, tail, offset));
    }
  }

  lemma Distribute(v: real, a: real, b: real)
    ensures v * a + v * b == v * (a + b)
  {
  }

  /** Writing `v` over a zero entry adds `v` times the matching entry. */
  lemma DotSet(row: seq<real>, x: seq<real>, k: nat, v: real)
    requires |row| == |x| && k < |row| && row[k] == 0.0
    ensures Dot(row[k := v], x) == Dot(row, x) + v * x[k]
  {
    DotUpdate(row, x, k, v);
    MinusZero(v, x[k]);
  }

  lemma MinusZero(v: real, y: real)
    ensures (v - 0.0) * y == v * y
  {
  }

  /** The dot product of a row that is zero but for two (three) entries. */
  lemma DotTwo(x: seq<real>, p: nat, vp: real, q: nat, vq: real)
    requires p < |x| && q < |x| && p != q
    ensures Dot(Zeros(|x|)[p := vp][q := vq], x) == vp * x[p] + vq * x[q]
  {
    var z := Zeros(|x|);
    DotZeros(x);
    DotSet(z, x, p, vp);
    DotSet(z[p := vp], x, q, vq);
  }

  lemma DotThree(x: seq<real>, p: nat, vp: real, q: nat, vq: real, r: nat, vr: real)
    requires p < |x| && q < |x| && r < |x| && p != q && q != r && p != r
    ensures Dot(Zeros(|x|)[p := vp][q := vq][r := vr], x) == vp * x[p] + vq * x[q] + vr * x[r]
  {
    DotTwo(x, p, vp, q, vq);
    DotSet(Zeros(|x|)[p := vp][q := vq], x, r, vr);
  }

  /** The same facts for a row already known to have that shape. */
  lemma RowDotTwo(row: seq<real>, x: seq<real>, n: nat, p: nat, vp: real, q: nat, vq: real)
    requires |x| == n && p < n && q < n && p != q
    requires row == Zeros(n)[p := vp][q := vq]
    ensures Dot(row, x) == vp * x[p] + vq * x[q]
  {
    DotTwo(x, p, vp, q, vq);
  }

  lemma RowDotThree(row: seq<real>, x: seq<real>, n: nat, p: nat, vp: real, q: nat, vq: real, r: nat, vr: real)
    requires |x| == n && p < n && q < n && r < n && p != q && q != r && p != r
    requires row == Zeros(n)[p := vp][q := vq][r := vr]
    ensures Dot(row, x) == vp * x[p] + vq * x[q] + vr * x[r]
  {
    DotThree(x, p, vp, q, vq, r, vr);
  }

  predicate Disjoint(hs: seq<nat>, gs: seq<nat>) {
    forall p, q | 0 <= p < |hs| && 0 <= q < |gs| :: hs[p] != gs[q]
  }

  /** A zero row with a single one picks out one entry of `x`. */
  lemma DotUnit(x: seq<real>, n: nat, i: nat)
    requires |x| == n && i < n
    ensures Dot(Zeros(n)[i := 1.0], x) == x[i]
  {
    DotZeros(x);
    DotSet(Zeros(n), x, i, 1.0);
    UnitScale(x[i]);
  }

  /** A zero row with ones in the columns of `hs` and minus ones in those
      of `gs` (disjoint, each without repeats) takes the difference of the
      two sums of matching entries of `x`. */
  lemma DotBalance(x: seq<real>, n: nat, hs: seq<nat>, gs: seq<nat>, offset: nat)
    requires |x| == n
    requires forall p | 0 <= p < |hs| :: offset + hs[p] < n
    requires forall p | 0 <= p < |gs| :: offset + gs[p] < n
    requires NoRepeats(hs) && NoRepeats(gs) && Disjoint(hs, gs)
    ensures Dot(WriteAll(WriteAll(Zeros(n), hs, offset, 1.0), gs, offset, -1.0), x) ==
      SumAt(x, hs, offset) - SumAt(x, gs, offset)
  {
    var afterNeg := WriteAll(Zeros(n), hs, offset, 1.0);
    DotZeros(x);
    DotWriteUnit(Zeros(n), x, hs, offset, 1.0);
    WriteAllEntries(Zeros(n), hs, offset, 1.0);
    forall p | 0 <= p < |gs|
      ensures afterNeg[offset + gs[p]] == 0.0
    {
      assert !Hits(hs, offset, offset + gs[p]);
    }
    DotWriteUnit(afterNeg, x, gs, offset, -1.0);
  }

  /** `DotWriteAll` for writes of `1` and `−1`, as a sum and a difference. */
  lemma DotWriteUnit(row: seq<real>, x: seq<real>, hs: seq<nat>, offset: nat, v: real)
    requires |row| == |x| && (v == 1.0 || v == -1.0)
    requires forall p | 0 <= p < |hs| :: offset + hs[p] < |row|
    requires NoRepeats(hs)
    requires forall p | 0 <= p < |hs| :: row[offset + hs[p]] == 0.0
    ensures v == 1.0 ==> Dot(WriteAll(row, hs, offset, v), x) == Dot(row, x) + SumAt(x, hs, offset)
    ensures v == -1.0 ==> Dot(WriteAll(row, hs, offset, v), x) == Dot(row, x) - SumAt(x, hs, offset)
  {
    DotWriteAll(row, x, hs, offset, v);
    UnitScale(SumAt(x, hs, offset));
  }

  lemma UnitScale(s: real)
    ensures 1.0 * s == s && -1.0 * s == -s
  {
  }
}

=== FILE: nodes.dfy ===
/** A circuit terminal: its name, whether it is tied to ground, and the
    handles of the components attached to it, split by polarity. */
module Nodes {
  import opened Python

  datatype Node = Node(name: string, ground: bool, posCons: seq<nat>, negCons: seq<nat>)

  const NameNotString := "argument name is not of type string"
  const GroundNotBool := "argument ground is not of type bool"
  const InvalidComponent := "invalid component argument"
  const InvalidPolarity := "invalid polarity argument"

  /** `Node(name, ground)`: the name must be a string and the flag a bool,
      checked in that order; a new node has no connections. */
  function NewNode(name: Value, ground: Value): (r: Result<Node>)
    ensures r.Ok? <==> name.Str? && ground.Bool?
    ensures !name.Str? ==> r == Err(TypeError(NameNotString))
    ensures name.Str? && !ground.Bool? ==> r == Err(TypeError(GroundNotBool))
    ensures r.Ok? ==> r.value.name == name.s && r.value.ground == ground.b
    ensures r.Ok? ==> r.value.posCons == [] && r.value.negCons == []
  {
    if !name.Str? then Err(TypeError(NameNotString))
    else if !ground.Bool? then Err(TypeError(GroundNotBool))
    else Ok(Node(name.s, ground.b, [], []))
  }

  /** `add_connection(cmp, polarity)`: both arguments are type-checked before
      anything changes; `true` appends to the positive list, `false` to the
      negative one, and nothing else about the node changes. */
  function AddConnection(n: Node, cmp: Value, polarity: Value): (r: Result<Node>)
    ensures r.Ok? <==> cmp.CompRef? && polarity.Bool?
    ensures !cmp.CompRef? ==> r == Err(TypeError(InvalidComponent))
    ensures cmp.CompRef? && !polarity.Bool? ==> r == Err(TypeError(InvalidPolarity))
    ensures r.Ok? ==> r.value.name == n.name && r.value.ground == n.ground
    ensures r.Ok? && polarity.b ==>
      r.value.posCons == n.posCons + [cmp.comp] && r.value.negCons == n.negCons
    ensures r.Ok? && !polarity.b ==>
      r.value.negCons == n.negCons + [cmp.comp] && r.value.posCons == n.posCons
  {
    if !cmp.CompRef? then Err(TypeError(InvalidComponent))
    else if !polarity.Bool? then Err(TypeError(InvalidPolarity))
    else if polarity.b then Ok(n.(posCons := n.posCons + [cmp.comp]))
    else Ok(n.(negCons := n.negCons + [cmp.comp]))
  }

  /** A run of `add_connection` calls, stopping at the first one that raises. */
  function AddConnections(n: Node, calls: seq<(Value, Value)>): Result<Node>
    decreases |calls|
  {
    if |calls| == 0 then Ok(n)
    else
      var n' :- AddConnection(n, calls[0].0, calls[0].1);
      AddConnections(n', calls[1..])
  }

  /** Connection lists are append-only: whatever a run of `add_connection`
      calls does, the lists it started from are prefixes of the lists it ends
      with, and the name and ground flag never change. */
  lemma {:induction false} ConnectionsAppendOnly(n: Node, calls: seq<(Value, Value)>)
    ensures AddConnections(n, calls).Ok? ==>
      var n' := AddConnections(n, calls).value;
      && n.posCons <= n'.posCons && n.negCons <= n'.negCons
      && n'.name == n.name && n'.ground == n.ground
    decreases |calls|
  {
    if |calls| > 0 {
      var step := AddConnection(n, calls[0].0, calls[0].1);
      if step.Ok? {
        ConnectionsAppendOnly(step.value, calls[1..]);
      }
    }
  }

  /** A run of calls succeeds exactly when every call passes the type checks,
      and each successful call lengthens exactly one list by one. */
  lemma {:induction false} ConnectionsCount(n: Node, calls: seq<(Value, Value)>)
    ensures AddConnections(n, calls).Ok? <==>
      forall k | 0 <= k < |calls| :: calls[k].0.CompRef? && calls[k].1.Bool?
    ensures AddConnections(n, calls).Ok? ==>
      var n' := AddConnections(n, calls).value;
      |n'.posCons| + |n'.negCons| == |n.posCons| + |n.negCons| + |calls|
    decreases |calls|
  {
    if |calls| > 0 {
      var step := AddConnection(n, calls[0].0, calls[0].1);
      if step.Ok? {
        ConnectionsCount(step.value, calls[1..]);
        assert forall k | 1 <= k < |calls| :: calls[k] == calls[1..][k - 1];
      }
    }
  }
}

=== FILE: python.dfy ===
/** Python-level vocabulary shared by every module of the circuit model:
    the exceptions the source raises, a Result type that carries them, and
    the dynamic values a caller may pass where the source performs a
    run-time type check. */
module Python {

  datatype Option<+T> = None | Some(value: T)

  /** The exceptions raised by the modelled code. `LinAlgError` is what the
      linear solver raises for a singular matrix. */
  datatype Error =
    | TypeError(message: string)
    | KeyError(message: string)
    | ZeroDivisionError
    | LinAlgError

  /** Either a value or the exception that aborted the call. */
  datatype Result<+T> = Ok(value: T) | Err(error: Error) {

    predicate IsFailure() {
      Err?
    }

    function PropagateFailure<U>(): Result<U>
      requires Err?
    {
      Err(error)
    }

    function Extract(): T
      requires Ok?
    {
      value
    }
  }

  /** A dynamically typed argument. `NodeRef(h)` is a Node object of the
      circuit at hand (handle `h` into its node list), `CompRef(h)` is a
      Component object (handle `h` into its component list). */
  datatype Value =
    | Str(s: string)
    | Bool(b: bool)
    | Num(x: real)
    | NodeRef(node: nat)
    | CompRef(comp: nat)
    | NoneValue
}

=== FILE: registration.dfy ===
/** Component construction: the base-class constructor type-checks its
    arguments, stores the component, and registers it with its terminals. */
module Registration {
  import opened Python
  import opened Nodes
  import opened Components
  import opened Circuits
  import opened Linear

  const NameNotString := "name is not of type string"
  const NegativeNotNode := "negative component connection is not to a node"
  const PositiveNotNode := "positive component connection is not to a node"

  /** `nodes[i].add_connection(component h, positive)`. */
  function Connect(c: Circuit, i: nat, h: nat, positive: bool): (r: Circuit)
    requires i < |c.nodes|
    ensures |r.nodes| == |c.nodes| && r.comps == c.comps
    ensures forall i' | 0 <= i' < |c.nodes| && i' != i :: r.nodes[i'] == c.nodes[i']
    ensures positive ==> r.nodes[i] == c.nodes[i].(posCons := c.nodes[i].posCons + [h])
    ensures !positive ==> r.nodes[i] == c.nodes[i].(negCons := c.nodes[i].negCons + [h])
  {
    var n := AddConnection(c.nodes[i], CompRef(h), Bool(positive));
    c.(nodes := c.nodes[i := n.value])
  }

  /** A terminal argument that is a Node is a node of this circuit. */
  predicate TerminalsInCircuit(c: Circuit, n1: Value, n2: Value) {
    (n1.NodeRef? ==> n1.node < |c.nodes|) && (n2.NodeRef? ==> n2.node < |c.nodes|)
  }

  /** The type checks of the constructor, in source order; `None` when all pass. */
  function CheckArguments(name: Value, n1: Value, n2: Value): (r: Option<Error>)
    ensures r.None? <==> name.Str? && n1.NodeRef? && n2.NodeRef?
  {
    if !name.Str? then Some(TypeError(NameNotString))
    else if !n1.NodeRef? then Some(TypeError(NegativeNotNode))
    else if !n2.NodeRef? then Some(TypeError(PositiveNotNode))
    else None
  }

  /** `Component(name, n1, n2)` with `n1` the negative and `n2` the positive
      terminal: every check runs before anything changes; the component
      takes the next handle and is registered as a negative connection of
      `n1` and a positive connection of `n2`, and no other node changes. */
  function NewComponent(c: Circuit, name: Value, n1: Value, n2: Value, variant: Variant): (r: Result<Circuit>)
    requires TerminalsInCircuit(c, n1, n2)
    ensures r.Ok? <==> name.Str? && n1.NodeRef? && n2.NodeRef?
    ensures !name.Str? ==> r == Err(TypeError(NameNotString))
    ensures name.Str? && !n1.NodeRef? ==> r == Err(TypeError(NegativeNotNode))
    ensures name.Str? && n1.NodeRef? && !n2.NodeRef? ==> r == Err(TypeError(PositiveNotNode))
    ensures r.Ok? ==> r.value.comps == c.comps + [Comp(name.s, n1.node, n2.node, variant)]
    ensures r.Ok? ==> |r.value.nodes| == |c.nodes|
    ensures r.Ok? ==> forall i | 0 <= i < |c.nodes| && i != n1.node && i != n2.node ::
      r.value.nodes[i] == c.nodes[i]
    ensures r.Ok? ==> r.value.nodes[n1.node].negCons == c.nodes[n1.node].negCons + [|c.comps|]
    ensures r.Ok? ==> r.value.nodes[n2.node].posCons == c.nodes[n2.node].posCons + [|c.comps|]
    ensures r.Ok? && n1.node != n2.node ==>
      && r.value.nodes[n1.node].posCons == c.nodes[n1.node].posCons
      && r.value.nodes[n2.node].negCons == c.nodes[n2.node].negCons
    ensures r.Ok? ==> forall i | 0 <= i < |c.nodes| ::
      r.value.nodes[i].name == c.nodes[i].name && r.value.nodes[i].ground == c.nodes[i].ground
  {
    match CheckArguments(name, n1, n2)
    case Some(e) => Err(e)
    case None =>
      var h := |c.comps|;
      var stored := c.(comps := c.comps + [Comp(name.s, n1.node, n2.node, variant)]);
      Ok(Connect(Connect(stored, n1.node, h, false), n2.node, h, true))
  }

  /** The constructor as written: the second registration goes to `n1`
      again (`n1.add_connection(self, True)`), so `n1` lists the component
      with both polarities and `n2` is left as it was. */
  function NewComponentAsWritten(c: Circuit, name: Value, n1: Value, n2: Value, variant: Variant): (r: Result<Circuit>)
    requires TerminalsInCircuit(c, n1, n2)
    ensures r.Ok? <==> name.Str? && n1.NodeRef? && n2.NodeRef?
    ensures r.Err? ==> NewComponent(c, name, n1, n2, variant) == r
    ensures r.Ok? ==> r.value.comps == c.comps + [Comp(name.s, n1.node, n2.node, variant)]
    ensures r.Ok? ==> |r.value.nodes| == |c.nodes|
    ensures r.Ok? ==> forall i | 0 <= i < |c.nodes| && i != n1.node :: r.value.nodes[i] == c.nodes[i]
    ensures r.Ok? ==> r.value.nodes[n1.node].negCons == c.nodes[n1.node].negCons + [|c.comps|]
    ensures r.Ok? ==> r.value.nodes[n1.node].posCons == c.nodes[n1.node].posCons + [|c.comps|]
    ensures r.Ok? ==> r.value.nodes[n1.node].name == c.nodes[n1.node].name && r.value.nodes[n1.node].ground == c.nodes[n1.node].ground
  {
    match CheckArguments(name, n1, n2)
    case Some(e) => Err(e)
    case None =>
      var h := |c.comps|;
      var stored := c.(comps := c.comps + [Comp(name.s, n1.node, n2.node, variant)]);
      Ok(Connect(Connect(stored, n1.node, h, false), n1.node, h, true))
  }

  /** The subclass constructors (`Resistor(name, n_neg, n_pos, resistance)`
      and the rest) with the corrected registration: the base constructor,
      then the variant's parameter. */
  function Construct(c: Circuit, kind: Kind, name: Value, nNeg: Value, nPos: Value, parameter: real): (r: Result<Circuit>)
    requires TerminalsInCircuit(c, nNeg, nPos)
    ensures r.Ok? <==> name.Str? && nNeg.NodeRef? && nPos.NodeRef?
    ensures r.Ok? ==> |r.value.comps| == |c.comps| + 1 && |r.value.nodes| == |c.nodes|
    ensures r.Ok? ==> var cm := r.value.comps[|c.comps|];
      cm.name == name.s && cm.neg == nNeg.node && cm.pos == nPos.node
    ensures r.Ok? ==> r.value.comps[|c.comps|].variant == VariantOf(kind, parameter)
    ensures r.Ok? ==> r.value.nodes[nNeg.node].negCons == c.nodes[nNeg.node].negCons + [|c.comps|]
    ensures r.Ok? ==> r.value.nodes[nPos.node].posCons == c.nodes[nPos.node].posCons + [|c.comps|]
    ensures r.Ok? ==> r.value.comps[..|c.comps|] == c.comps
    ensures r.Ok? ==> forall i | 0 <= i < |c.nodes| && i != nNeg.node && i != nPos.node ::
      r.value.nodes[i] == c.nodes[i]
    ensures r.Ok? && nNeg.node != nPos.node ==>
      && r.value.nodes[nNeg.node].posCons == c.nodes[nNeg.node].posCons
      && r.value.nodes[nPos.node].negCons == c.nodes[nPos.node].negCons
    ensures r.Ok? ==> forall i | 0 <= i < |c.nodes| ::
      r.value.nodes[i].name == c.nodes[i].name && r.value.nodes[i].ground == c.nodes[i].ground
  {
    NewComponent(c, name, nNeg, nPos, VariantOf(kind, parameter))
  }

  /** The subclass constructors as written: they inherit the base
      constructor's registration, so `n_neg` lists the new component with
      both polarities and `n_pos` does not list it at all. */
  function ConstructAsWritten(c: Circuit, kind: Kind, name: Value, nNeg: Value, nPos: Value, parameter: real): (r: Result<Circuit>)
    requires TerminalsInCircuit(c, nNeg, nPos)
    ensures r.Ok? <==> name.Str? && nNeg.NodeRef? && nPos.NodeRef?
    ensures r.Err? ==> r == Construct(c, kind, name, nNeg, nPos, parameter)
    ensures r.Ok? ==> |r.value.comps| == |c.comps| + 1 && |r.value.nodes| == |c.nodes|
    ensures r.Ok? ==> r.value.comps[|c.comps|] == Comp(name.s, nNeg.node, nPos.node, VariantOf(kind, parameter))
    ensures r.Ok? ==> r.value.nodes[nNeg.node].negCons == c.nodes[nNeg.node].negCons + [|c.comps|]
    ensures r.Ok? ==> r.value.nodes[nNeg.node].posCons == c.nodes[nNeg.node].posCons + [|c.comps|]
    ensures r.Ok? && nPos.node != nNeg.node ==> r.value.nodes[nPos.node] == c.nodes[nPos.node]
    ensures r.Ok? ==> r.value.comps[..|c.comps|] == c.comps
    ensures r.Ok? ==> forall i | 0 <= i < |c.nodes| && i != nNeg.node :: r.value.nodes[i] == c.nodes[i]
    ensures r.Ok? ==>
      r.value.nodes[nNeg.node].name == c.nodes[nNeg.node].name && r.value.nodes[nNeg.node].ground == c.nodes[nNeg.node].ground
  {
    NewComponentAsWritten(c, name, nNeg, nPos, VariantOf(kind, parameter))
  }

  /** `Resistor(name, n_neg, n_pos, resistance)` stores `B = −resistance`,
      so its equation reads `V − R·I = 0`. */
  lemma ResistorConstruction(c: Circuit, name: Value, nNeg: Value, nPos: Value, resistance: real)
    requires TerminalsInCircuit(c, nNeg, nPos)
    requires Construct(c, ResistorKind, name, nNeg, nPos, resistance).Ok?
    ensures var cm := Construct(c, ResistorKind, name, nNeg, nPos, resistance).value.comps[|c.comps|];
      cm.variant.Resistor? && cm.variant.b == -resistance
  {
  }

  /** `Capacitor(name, n_neg, n_pos, capacitance)`, with the corrected
      registration: it registers with both terminals and stores the
      capacitance unchanged. */
  lemma CapacitorConstruction(c: Circuit, name: Value, nNeg: Value, nPos: Value, capacitance: real)
    requires TerminalsInCircuit(c, nNeg, nPos)
    requires Construct(c, CapacitorKind, name, nNeg, nPos, capacitance).Ok?
    ensures var c' := Construct(c, CapacitorKind, name, nNeg, nPos, capacitance).value;
      && c'.comps[|c.comps|].variant == Capacitor(capacitance)
      && |c.comps| in c'.nodes[nNeg.node].negCons && |c.comps| in c'.nodes[nPos.node].posCons
  {
  }

  /** `Inductor(name, n_neg, n_pos, inductance)`, with the corrected
      registration: it registers with both terminals and stores the
      inductance unchanged. */
  lemma InductorConstruction(c: Circuit, name: Value, nNeg: Value, nPos: Value, inductance: real)
    requires TerminalsInCircuit(c, nNeg, nPos)
    requires Construct(c, InductorKind, name, nNeg, nPos, inductance).Ok?
    ensures var c' := Construct(c, InductorKind, name, nNeg, nPos, inductance).value;
      && c'.comps[|c.comps|].variant == Inductor(inductance)
      && |c.comps| in c'.nodes[nNeg.node].negCons && |c.comps| in c'.nodes[nPos.node].posCons
  {
  }

  /** The connection lists of every node after construction: the new
      handle is appended to the negative list of `n1` and to the positive
      list of `n2`, and to nothing else. */
  lemma NewComponentLists(c: Circuit, name: Value, n1: Value, n2: Value, variant: Variant, i: nat)
    requires TerminalsInCircuit(c, n1, n2) && i < |c.nodes|
    requires NewComponent(c, name, n1, n2, variant).Ok?
    ensures var n := NewComponent(c, name, n1, n2, variant).value.nodes[i];
      && n.negCons == c.nodes[i].negCons + (if i == n1.node then [|c.comps|] else [])
      && n.posCons == c.nodes[i].posCons + (if i == n2.node then [|c.comps|] else [])
  {
  }

  lemma AppendNoRepeats(hs: seq<nat>, h: nat)
    requires NoRepeats(hs) && HandlesBelow(hs, h)
    ensures NoRepeats(hs + [h]) && HandlesBelow(hs + [h], h + 1)
  {
  }

  /** Construction keeps a consistent circuit consistent: the new handle
      appears once in the negative list of its negative terminal and once
      in the positive list of its positive terminal, and nowhere else. */
  lemma NewComponentKeepsConsistent(c: Circuit, name: Value, n1: Value, n2: Value, variant: Variant)
    requires Consistent(c) && TerminalsInCircuit(c, n1, n2)
    requires NewComponent(c, name, n1, n2, variant).Ok?
    ensures Consistent(NewComponent(c, name, n1, n2, variant).value)
  {
    var c' := NewComponent(c, name, n1, n2, variant).value;
    var h := |c.comps|;
    forall i | 0 <= i < |c'.nodes|
      ensures HandlesBelow(c'.nodes[i].posCons, |c'.comps|) && HandlesBelow(c'.nodes[i].negCons, |c'.comps|)
      ensures NoRepeats(c'.nodes[i].negCons) && NoRepeats(c'.nodes[i].posCons)
      ensures forall j | 0 <= j < |c'.comps| :: j in c'.nodes[i].negCons <==> c'.comps[j].neg == i
      ensures forall j | 0 <= j < |c'.comps| :: j in c'.nodes[i].posCons <==> c'.comps[j].pos == i
    {
      NewComponentLists(c, name, n1, n2, variant, i);
      var old_ := c.nodes[i];
      AppendNoRepeats(old_.negCons, h);
      AppendNoRepeats(old_.posCons, h);
      forall j | 0 <= j < |c'.comps|
        ensures j in c'.nodes[i].negCons <==> c'.comps[j].neg == i
        ensures j in c'.nodes[i].posCons <==> c'.comps[j].pos == i
      {
        if j < h {
          assert c'.comps[j] == c.comps[j];
          assert j in c'.nodes[i].negCons <==> j in old_.negCons;
          assert j in c'.nodes[i].posCons <==> j in old_.posCons;
        } else {
          assert HandlesBelow(old_.negCons, h) && HandlesBelow(old_.posCons, h);
          assert h !in old_.negCons && h !in old_.posCons;
        }
      }
    }
  }

  /** As written, construction between two different nodes breaks
      consistency: the positive terminal does not list the component. */
  lemma AsWrittenBreaksConsistency(c: Circuit, name: Value, n1: Value, n2: Value, variant: Variant)
    requires TerminalsInCircuit(c, n1, n2)
    requires NewComponentAsWritten(c, name, n1, n2, variant).Ok?
    requires n1.node != n2.node
    ensures !Consistent(NewComponentAsWritten(c, name, n1, n2, variant).value)
  {
    var c' := NewComponentAsWritten(c, name, n1, n2, variant).value;
    var h := |c.comps|;
    assert h in c'.nodes[n1.node].posCons && c'.comps[h].pos != n1.node;
  }
}

=== FILE: sweep.dfy ===
/** The AC sweep end to end: assemble the system, hand it to the linear
    solver, and map the solution back to the names of the nodes and
    components. The solver is a parameter with the contract of an exact
    linear solve: the unique solution when there is one, `LinAlgError`
    (a singular matrix) otherwise. */
module Sweep {
  import opened Python
  import opened Nodes
  import opened Components
  import opened Circuits
  import opened Linear
  import opened Assembly
  import opened Laws

  /** `x` is the one and only solution of `sys`. */
  ghost predicate UniqueSolution(sys: System, x: seq<real>) {
    Solves(sys, x) && forall y: seq<real> | Solves(sys, y) :: y == x
  }

  /** A linear solver in exact arithmetic: it returns `x` exactly when `x`
      is the unique solution, and nothing (a `LinAlgError`) when the
      system has none or many. */
  ghost predicate ExactSolver(solve: System -> Option<seq<real>>) {
    forall sys: System, x: seq<real> :: solve(sys) == Some(x) <==> UniqueSolution(sys, x)
  }

  /** The name of an unknown's node or component. */
  function EntityName(c: Circuit, e: Entity): string
    requires Valid(c, e)
  {
    match e
    case NodeEntity(i) => c.nodes[i].name
    case CompEntity(j) => c.comps[j].name
  }

  /** The names the results are keyed by, in index order: the nodes', then
      the components'. */
  function Names(c: Circuit): (r: seq<string>)
    ensures |r| == Size(c)
    ensures forall i | 0 <= i < |c.nodes| :: r[i] == c.nodes[i].name
    ensures forall j | 0 <= j < |c.comps| :: r[|c.nodes| + j] == c.comps[j].name
  {
    seq(Size(c), k requires 0 <= k < Size(c) => EntityName(c, EntityAt(c, k)))
  }

  /** Each entity's name sits at the index the sweep assigns it, which is
      also the index of its unknown. */
  lemma NameOfEntity(c: Circuit, e: Entity)
    requires Valid(c, e)
    ensures Names(c)[IndexOf(c, e)] == EntityName(c, e)
  {
    IndexAssignmentIsBijection(c);
  }

  /** `results[names[k]] = values[k]` for `k` in order, into an empty
      dictionary. */
  function Collect(names: seq<string>, values: seq<real>): map<string, real>
    requires |names| == |values|
    decreases |names|
  {
    if |names| == 0 then map[]
    else Collect(names[..|names| - 1], values[..|values| - 1])[names[|names| - 1] := values[|values| - 1]]
  }

  /** The result dictionary of a solution vector. */
  function Results(c: Circuit, x: seq<real>): map<string, real>
    requires |x| == Size(c)
  {
    Collect(Names(c), x)
  }

  /** `names[p]` is not written again after position `p`. */
  predicate LastOccurrence(names: seq<string>, p: nat)
    requires p < |names|
  {
    forall q | p < q < |names| :: names[q] != names[p]
  }

  /** The dictionary's keys are exactly the names written. */
  lemma {:induction false} CollectKeys(names: seq<string>, values: seq<real>)
    requires |names| == |values|
    ensures forall s :: s in Collect(names, values) <==> s in names
    decreases |names|
  {
    if |names| > 0 {
      var last := |names| - 1;
      CollectKeys(names[..last], values[..last]);
      assert names == names[..last] + [names[last]];
    }
  }

  /** Each name maps to the value at its last occurrence: a later write
      overwrites an earlier one. */
  lemma {:induction false} CollectLastWins(names: seq<string>, values: seq<real>, p: nat)
    requires |names| == |values| && p < |names| && LastOccurrence(names, p)
    ensures names[p] in Collect(names, values) && Collect(names, values)[names[p]] == values[p]
    decreases |names|
  {
    var last := |names| - 1;
    if p < last {
      var front, rest := names[..last], values[..last];
      assert names[last] != names[p];
      assert LastOccurrence(front, p) by {
        forall q | p < q < last ensures front[q] != front[p] {
          assert front[q] == names[q] && front[p] == names[p];
        }
      }
      CollectLastWins(front, rest, p);
      assert front[p] == names[p] && rest[p] == values[p];
    }
  }

  /** The keys of the results are the node names and the component names. */
  lemma ResultKeys(c: Circuit, x: seq<real>)
    requires |x| == Size(c)
    ensures forall s :: s in Results(c, x) <==>
      (exists i | 0 <= i < |c.nodes| :: c.nodes[i].name == s) || (exists j | 0 <= j < |c.comps| :: c.comps[j].name == s)
  {
    var names, n := Names(c), |c.nodes|;
    CollectKeys(names, x);
    forall s
      ensures s in names <==>
        (exists i | 0 <= i < n :: c.nodes[i].name == s) || (exists j | 0 <= j < |c.comps| :: c.comps[j].name == s)
    {
      NameIn(c, s);
    }
  }

  lemma NameIn(c: Circuit, s: string)
    ensures s in Names(c) <==>
      (exists i | 0 <= i < |c.nodes| :: c.nodes[i].name == s) || (exists j | 0 <= j < |c.comps| :: c.comps[j].name == s)
  {
    var names, n := Names(c), |c.nodes|;
    if s in names {
      var p :| 0 <= p < |names| && names[p] == s;
      if p < n {
        assert c.nodes[p].name == s;
      } else {
        ComponentName(c, p);
      }
    }
    if exists i | 0 <= i < n :: c.nodes[i].name == s {
      var i :| 0 <= i < n && c.nodes[i].name == s;
      assert names[i] == s;
    }
    if exists j | 0 <= j < |c.comps| :: c.comps[j].name == s {
      var j :| 0 <= j < |c.comps| && c.comps[j].name == s;
      assert names[n + j] == s;
    }
  }

  /** Components are written after nodes, so a component's name holds its
      own current unless a later component has the same name. */
  lemma ComponentResult(c: Circuit, x: seq<real>, j: nat)
    requires |x| == Size(c) && j < |c.comps|
    requires forall j' | j < j' < |c.comps| :: c.comps[j'].name != c.comps[j].name
    ensures c.comps[j].name in Results(c, x) && Results(c, x)[c.comps[j].name] == x[|c.nodes| + j]
  {
    var names, n := Names(c), |c.nodes|;
    assert LastOccurrence(names, n + j) by {
      forall q | n + j < q < |names| ensures names[q] != names[n + j] {
        assert names[q] == c.comps[q - n].name;
      }
    }
    CollectLastWins(names, x, n + j);
  }

  /** A node's name holds its own voltage unless a later node or any
      component has the same name. */
  lemma NodeResult(c: Circuit, x: seq<real>, i: nat)
    requires |x| == Size(c) && i < |c.nodes|
    requires forall i' | i < i' < |c.nodes| :: c.nodes[i'].name != c.nodes[i].name
    requires forall j | 0 <= j < |c.comps| :: c.comps[j].name != c.nodes[i].name
    ensures c.nodes[i].name in Results(c, x) && Results(c, x)[c.nodes[i].name] == x[i]
  {
    var names, n := Names(c), |c.nodes|;
    assert LastOccurrence(names, i) by {
      forall q | i < q < |names| ensures names[q] != names[i] {
        if q >= n {
          assert names[q] == c.comps[q - n].name;
        }
      }
    }
    CollectLastWins(names, x, i);
  }

  /** The result mapping as the source performs it: one loop over the
      nodes, then one over the components, writing into a dictionary. */
  method ResultsInPlace(c: Circuit, x: seq<real>) returns (results: map<string, real>)
    requires |x| == Size(c)
    ensures results == Results(c, x)
  {
    results := NodeResults(c, x);
    results := ComponentResults(c, x, results);
  }

  /** The first loop: each node's voltage under its name, into an empty
      dictionary. */
  method NodeResults(c: Circuit, x: seq<real>) returns (results: map<string, real>)
    requires |x| == Size(c)
    ensures results == Collect(Names(c)[..|c.nodes|], x[..|c.nodes|])
  {
    results := map[];
    for i := 0 to |c.nodes|
      invariant results == Collect(Names(c)[..i], x[..i])
    {
      NodeStep(c, x, i, results);
      results := results[c.nodes[i].name := x[IndexOf(c, NodeEntity(i))]];
    }
  }

  /** Writing node `i`'s voltage, at its assigned index, extends the
      dictionary of the first `i` unknowns by one. */
  lemma NodeStep(c: Circuit, x: seq<real>, i: nat, m: map<string, real>)
    requires |x| == Size(c) && i < |c.nodes|
    requires m == Collect(Names(c)[..i], x[..i])
    ensures m[c.nodes[i].name := x[IndexOf(c, NodeEntity(i))]] == Collect(Names(c)[..i + 1], x[..i + 1])
  {
    CollectStep(Names(c), x, i);
  }

  /** The second loop: each component's current under its name, over the
      nodes' entries. */
  method ComponentResults(c: Circuit, x: seq<real>, nodeResults: map<string, real>) returns (results: map<string, real>)
    requires |x| == Size(c)
    requires nodeResults == Collect(Names(c)[..|c.nodes|], x[..|c.nodes|])
    ensures results == Results(c, x)
  {
    results := nodeResults;
    for k := |c.nodes| to |c.nodes| + |c.comps|
      invariant results == Collect(Names(c)[..k], x[..k])
    {
      ComponentStep(c, x, k, results);
      results := results[c.comps[k - |c.nodes|].name := x[IndexOf(c, CompEntity(k - |c.nodes|))]];
    }
    AllWritten(c, x);
  }

  /** Writing component `k - N`'s current, at its assigned index, extends
      the dictionary of the first `k` unknowns by one. */
  lemma ComponentStep(c: Circuit, x: seq<real>, k: nat, m: map<string, real>)
    requires |x| == Size(c) && |c.nodes| <= k < Size(c)
    requires m == Collect(Names(c)[..k], x[..k])
    ensures m[c.comps[k - |c.nodes|].name := x[IndexOf(c, CompEntity(k - |c.nodes|))]] ==
      Collect(Names(c)[..k + 1], x[..k + 1])
  {
    CollectStep(Names(c), x, k);
    ComponentName(c, k);
  }

  /** Index `k` past the nodes names component `k - N`. */
  lemma ComponentName(c: Circuit, k: nat)
    requires |c.nodes| <= k < Size(c)
    ensures Names(c)[k] == c.comps[k - |c.nodes|].name
  {
    var j := k - |c.nodes|;
    assert Names(c)[|c.nodes| + j] == c.comps[j].name;
  }

  /** Once every component is written, the dictionary is the result. */
  lemma AllWritten(c: Circuit, x: seq<real>)
    requires |x| == Size(c)
    ensures Collect(Names(c)[..|c.nodes| + |c.comps|], x[..|c.nodes| + |c.comps|]) == Results(c, x)
  {
    assert Names(c)[..Size(c)] == Names(c) && x[..Size(c)] == x;
  }

  /** One more write extends the dictionary of a prefix. */
  lemma CollectStep(names: seq<string>, values: seq<real>, k: nat)
    requires |names| == |values| && k < |names|
    ensures Collect(names[..k + 1], values[..k + 1]) == Collect(names[..k], values[..k])[names[k] := values[k]]
  {
    assert names[..k + 1][..k] == names[..k] && values[..k + 1][..k] == values[..k];
  }

  /** `ac_sweep`: the exception of the first component whose `get_params`
      raises, `LinAlgError` when the solver finds no unique solution, and
      otherwise the result dictionary of the solution. */
  function AcSweep(c: Circuit, state: StateDict, reading: GroundReading, solve: System -> Option<seq<real>>)
    : (r: Result<map<string, real>>)
    requires WellFormed(c) && ExactSolver(solve)
    ensures Assemble(c, state, reading).Err? ==> r == Err(Assemble(c, state, reading).error)
    ensures Assemble(c, state, reading).Ok? && solve(Assemble(c, state, reading).value).None? ==>
      r == Err(LinAlgError)
    ensures r.Ok? <==> Assemble(c, state, reading).Ok? && solve(Assemble(c, state, reading).value).Some?
  {
    var sys :- Assemble(c, state, reading);
    match solve(sys)
    case None => Err(LinAlgError)
    case Some(x) =>
      assert UniqueSolution(sys, x);
      Ok(Results(c, x))
  }

  /** The sweep succeeds exactly when every `get_params` succeeds and the
      circuit laws (current balance at every node, the ground reference,
      and every branch equation) have exactly one solution; its results
      then come from that solution. */
  lemma SweepSucceedsIffLawsDetermineState(c: Circuit, state: StateDict, reading: GroundReading,
                                           solve: System -> Option<seq<real>>)
    requires SimpleConnections(c) && ExactSolver(solve)
    ensures AcSweep(c, state, reading, solve).Ok? <==>
      && CoeffsOf(c.comps, state).Ok?
      && exists x | |x| == Size(c) :: UniqueLaws(c, CoeffsOf(c.comps, state).value, x, reading)
    ensures AcSweep(c, state, reading, solve).Ok? ==>
      exists x | |x| == Size(c) ::
        && UniqueLaws(c, CoeffsOf(c.comps, state).value, x, reading)
        && AcSweep(c, state, reading, solve).value == Results(c, x)
  {
    if AcSweep(c, state, reading, solve).Ok? {
      var x := SweepSolution(c, state, reading, solve);
    } else if CoeffsOf(c.comps, state).Ok? {
      forall x | |x| == Size(c)
        ensures !UniqueLaws(c, CoeffsOf(c.comps, state).value, x, reading)
      {
        if UniqueLaws(c, CoeffsOf(c.comps, state).value, x, reading) {
          UniqueLawsAreFound(c, state, reading, solve, x);
        }
      }
    }
  }

  /** A successful sweep reports the unique state the laws allow. */
  lemma SweepSolution(c: Circuit, state: StateDict, reading: GroundReading, solve: System -> Option<seq<real>>)
    returns (x: seq<real>)
    requires SimpleConnections(c) && ExactSolver(solve) && AcSweep(c, state, reading, solve).Ok?
    ensures CoeffsOf(c.comps, state).Ok? && |x| == Size(c)
    ensures UniqueLaws(c, CoeffsOf(c.comps, state).value, x, reading)
    ensures AcSweep(c, state, reading, solve).value == Results(c, x)
  {
    var sys := Assemble(c, state, reading).value;
    x := solve(sys).value;
    assert UniqueSolution(sys, x);
    AssembledShape(c, state, reading);
    SolutionsAreLawStates(c, state, reading, x);
  }

  /** When the parameters are available and the laws determine the state,
      the solver finds it and the sweep succeeds. */
  lemma UniqueLawsAreFound(c: Circuit, state: StateDict, reading: GroundReading,
                           solve: System -> Option<seq<real>>, x: seq<real>)
    requires SimpleConnections(c) && ExactSolver(solve) && CoeffsOf(c.comps, state).Ok? && |x| == Size(c)
    requires UniqueLaws(c, CoeffsOf(c.comps, state).value, x, reading)
    ensures AcSweep(c, state, reading, solve) == Ok(Results(c, x))
  {
    assert Assemble(c, state, reading).Ok?;
    var sys := Assemble(c, state, reading).value;
    SolutionsAreLawStates(c, state, reading, x);
    assert UniqueSolution(sys, x);
    assert solve(sys) == Some(x);
  }

  /** `x` satisfies the circuit laws, and no other vector of the same size does. */
  ghost predicate UniqueLaws(c: Circuit, ks: seq<Coeffs>, x: seq<real>, reading: GroundReading)
    requires WellFormed(c) && |ks| == |c.comps| && |x| == Size(c)
  {
    && CircuitLaws(c, ks, x, reading)
    && forall y: seq<real> | |y| == Size(c) && CircuitLaws(c, ks, y, reading) :: y == x
  }

  lemma AssembledShape(c: Circuit, state: StateDict, reading: GroundReading)
    requires WellFormed(c) && Assemble(c, state, reading).Ok?
    ensures CoeffsOf(c.comps, state).Ok?
    ensures forall y: seq<real> | Solves(Assemble(c, state, reading).value, y) :: |y| == Size(c)
  {
    AssembledRows(c, state, reading);
  }

  /** The unique solution of the assembled system is the unique state the
      circuit laws allow. */
  lemma SolutionsAreLawStates(c: Circuit, state: StateDict, reading: GroundReading, x: seq<real>)
    requires SimpleConnections(c) && Assemble(c, state, reading).Ok? && |x| == Size(c)
    ensures CoeffsOf(c.comps, state).Ok?
    ensures UniqueSolution(Assemble(c, state, reading).value, x) <==>
      UniqueLaws(c, CoeffsOf(c.comps, state).value, x, reading)
  {
    var sys := Assemble(c, state, reading).value;
    AssembledShape(c, state, reading);
    var ks := CoeffsOf(c.comps, state).value;
    forall y | |y| == Size(c)
      ensures Solves(sys, y) <==> CircuitLaws(c, ks, y, reading)
    {
      SystemIsCircuitLaws(c, state, reading, y);
    }
  }

  /** No two entities of the circuit share a name. */
  predicate DistinctNames(c: Circuit) {
    forall p, q | 0 <= p < q < Size(c) :: Names(c)[p] != Names(c)[q]
  }

  /** With distinct names, each name holds exactly its own entry. */
  lemma DistinctResult(c: Circuit, x: seq<real>, k: nat)
    requires |x| == Size(c) && DistinctNames(c) && k < Size(c)
    ensures Names(c)[k] in Results(c, x) && Results(c, x)[Names(c)[k]] == x[k]
  {
    CollectLastWins(Names(c), x, k);
  }

  /** The vector a result dictionary reports, read back by name in index
      order. */
  function Readback(c: Circuit, m: map<string, real>): (y: seq<real>)
    requires forall k | 0 <= k < Size(c) :: Names(c)[k] in m
    ensures |y| == Size(c)
  {
    seq(Size(c), k requires 0 <= k < Size(c) => m[Names(c)[k]])
  }

  /** With distinct names, the dictionary gives back the solution vector. */
  lemma ReadbackResults(c: Circuit, x: seq<real>)
    requires |x| == Size(c) && DistinctNames(c)
    ensures forall k | 0 <= k < Size(c) :: Names(c)[k] in Results(c, x)
    ensures Readback(c, Results(c, x)) == x
  {
    forall k | 0 <= k < Size(c)
      ensures Names(c)[k] in Results(c, x) && Results(c, x)[Names(c)[k]] == x[k]
    {
      DistinctResult(c, x, k);
    }
  }

  /** The physical reading of a state: every ground node is at 0 V, and
      every component's current and the voltage across it obey that
      component's law (no current when both terminals are grounded). */
  ghost predicate PhysicalLaws(c: Circuit, state: StateDict, y: seq<real>)
    requires WellFormed(c) && |y| == Size(c)
  {
    && (forall i | 0 <= i < |c.nodes| && c.nodes[i].ground :: y[i] == 0.0)
    && (forall j | 0 <= j < |c.comps| ::
          if BothGrounded(c, j) then y[|c.nodes| + j] == 0.0
          else Law(c.comps[j].variant, FrequencyOf(state), y[c.comps[j].pos] - y[c.comps[j].neg], y[|c.nodes| + j]))
  }

  /** The intended circuit laws imply the physical reading. */
  lemma LawsArePhysical(c: Circuit, state: StateDict, x: seq<real>)
    requires WellFormed(c) && |x| == Size(c)
    requires CoeffsOf(c.comps, state).Ok? && CircuitLaws(c, CoeffsOf(c.comps, state).value, x, Diagonal)
    ensures PhysicalLaws(c, state, x)
  {
    forall i | 0 <= i < |c.nodes| && c.nodes[i].ground
      ensures x[i] == 0.0
    {
      assert NodeLaw(c, x, Diagonal, i);
    }
    forall j | 0 <= j < |c.comps|
      ensures if BothGrounded(c, j) then x[|c.nodes| + j] == 0.0
        else Law(c.comps[j].variant, FrequencyOf(state), x[c.comps[j].pos] - x[c.comps[j].neg], x[|c.nodes| + j])
    {
      if BothGrounded(c, j) {
        assert BranchLaw(c, CoeffsOf(c.comps, state).value, x, j);
      } else {
        SolutionsObeyComponentLaws(c, state, x, j);
      }
    }
  }

  /** A successful sweep, with ground nodes read as intended and distinct
      names, reports every name, and the values it reports obey the
      physical laws. */
  lemma SweepReportsPhysicalLaws(c: Circuit, state: StateDict, solve: System -> Option<seq<real>>)
    requires SimpleConnections(c) && ExactSolver(solve) && DistinctNames(c)
    requires AcSweep(c, state, Diagonal, solve).Ok?
    ensures forall k | 0 <= k < Size(c) :: Names(c)[k] in AcSweep(c, state, Diagonal, solve).value
    ensures PhysicalLaws(c, state, Readback(c, AcSweep(c, state, Diagonal, solve).value))
  {
    var x := SweepSolution(c, state, Diagonal, solve);
    ReadbackResults(c, x);
    LawsArePhysical(c, state, x);
  }
}
